=== FILE: README.md ===
# jupyterlab_discovery — a Dafny model of the extension manager core

jupyterlab_discovery is a JupyterLab extension that lets a user search the npm
registry for JupyterLab extensions, see which ones are installed, and install,
uninstall, enable or disable them. It has four parts, and this project models
the logic of each:

- **The browser-side list model** (`src/model.ts`, module `ListModel`). It
  turns a registry search page and the server's installed list into two views:
  `installed` and `installable` (search hits that are not installed). It also
  guards the four actions and turns each into a `{cmd, extension_name}`
  request.
- **The registry query builder** (`src/query.ts`, module `Query`). It builds the
  `text`, `size` and `from` parameters of an npm search.
- **The companion-package flow** (`src/companions.ts`, module `Companions`).
  Some extensions declare a kernel-side or server-side package. This part
  models the two dialogs, the per-companion configuration the user edits
  (manager and selected kernels), the install tasks launched after "Install",
  the install snippet run in each kernel, the shell command sent to a
  terminal, and the final "may the npm package still be installed directly?"
  decision.
- **The server handler** (`jupyterlab_discovery/handlers.py`, module
  `Handlers`). It builds the installed list from the app info and a cache of
  `yarn outdated` results. It also validates POSTed commands, dispatches them
  and picks the HTTP status.

Shared pieces:

- `Dict` models a string-keyed object or dict as an insertion-ordered
  sequence of pairs. Assigning to an existing key keeps its position;
  assigning a new key appends it. `Index` is the loop "for each record, if it
  is wanted, `entries[key] = value`". Its lemmas state which keys it holds,
  that the last assignment wins, and the order of the keys.
- `Wrappers` provides `Option` and `Result`.
- `Protocol` connects the two ends. A guarded client action reaches the
  server's validation as the matching command. An extension the server lists
  is shown by the client as installed, with the server's fields.

JavaScript's `undefined`/`null` fields are `Option`s. A thrown error or a
rejected promise is a `Result.Failure` carrying the message text. Dialog
answers, kernel replies, terminal messages, manager outcomes and the output
of `yarn outdated` are parameters.

Behaviours of the code a reader might not expect; the model follows the
code:

- The final decision ("install the npm package directly?") looks at every
  kernel companion's effective entry, whether or not any of its kernels were
  selected. It ignores the server companion.
- The decision does not wait for the kernel or server installs.
- The "kernel companions" part of the first prompt is driven by whether the
  list is present, not whether it is empty. An empty list still selects
  "Install in Kernel" or "Install Companions".
- The code has no pending-operation set, no offline state, no
  request-generation counter and no ceiling-based page count. The widget's
  float `totalEntries / pagination` (src/widget.tsx:166) is UI and left out.
- A POST answers 200 even when `uninstall` reports status `"error"`.

## Model

| member | source | states |
|---|---|---|
| Dict.Put | src/model.ts:70-79 | assigning an object key: an existing key keeps its position and takes the new value, a new key is appended, every other key keeps its value, and keys stay unique |
| Dict.IndexLookup | src/model.ts:65-80 | after a keyed-assignment loop, a key is present exactly when some record names it, and its value comes from the last record that names it |
| Dict.IndexOrder | src/model.ts:152-153 | `Object.keys` order is first-assignment order: an entry whose key was first assigned earlier comes earlier |
| Query.SearchExtension | src/query.ts:76-82 | the search text wraps the query between "not:insecure " and " keywords:jupyterlab extension", so the query can be read back from it; size is the pagination (default 250); from is pagination × page (page defaults to 0) |
| Query.SearchWindows | src/query.ts:79-82 | different queries give different search texts; page 0 starts at offset 0; the next page starts exactly one pagination later |
| Query.FindAllExtensions | src/query.ts:92-95 | the catalogue search carries no size or from, and its text is not a wrapped query |
| ListModel.TranslateSearchResult | src/model.ts:63-82 | one entry per distinct hit name other than jupyterlab_discovery, keyed by that name; every entry is not installed, not enabled, has no status and no python package, and has an empty installed version |
| ListModel.SearchEntryFromLastHit | src/model.ts:70-79 | the entry for a name carries the description and version of the last hit with that name |
| ListModel.SearchOrder | src/model.ts:65-80 | search entries keep the registry's order of first appearance |
| ListModel.TranslateInstalled | src/model.ts:84-107 | one entry per distinct installed name other than jupyterlab_discovery, keyed by that name, each marked installed |
| ListModel.InstalledEntryFromLastRecord | src/model.ts:92-101 | the entry for a name copies description, enabled, status, latest and installed version from the last server record with that name |
| ListModel.InstallableKey | src/model.ts:157-162 | a name is installable exactly when it is a search hit and not an installed name |
| ListModel.Merge | src/model.ts:146-166 | `installed` names are exactly the server's names, `installable` names are exactly the hits minus the installed names, the two lists are disjoint and duplicate-free, every installed entry is the translation of the last server record with its name, every installable entry is the translation of the last hit with its name, and the total is the search's total |
| ListModel.SearchRequest | src/model.ts:147 | `update` searches with the model's query, size = pagination and from = pagination × page |
| ListModel.Refresh | src/model.ts:146-166 | `update` keeps query, page and pagination and replaces both lists and the total with the merge of the new search and installed list |
| ListModel.InitialSearch | src/model.ts:210-213 | a fresh model has empty lists and total 0, and the search an `update` would issue from its initial parameters asks for the first 250 hits of the bare keyword filter |
| ListModel.PerformAction | src/model.ts:168-176 | the request body carries the action's command string and the entry's name |
| ListModel.InstallEntry | src/model.ts:182-187 | install fails with "Already installed: <name>" exactly when the entry is installed, else sends an install request for it |
| ListModel.UninstallEntry | src/model.ts:189-194 | uninstall fails with "Not installed, cannot uninstall: <name>" exactly when the entry is not installed, else sends an uninstall request |
| ListModel.EnableEntry | src/model.ts:196-201 | enable fails with "Already enabled: <name>" exactly when the entry is enabled, else sends an enable request |
| ListModel.DisableEntry | src/model.ts:203-208 | disable fails with "Already disabled: <name>" exactly when the entry is disabled, else sends a disable request |
| ListModel.ActionGuard | src/model.ts:182-208 | every action is sent exactly when the entry's flag differs from the action's goal; the request carries the action's command and the entry's name, and every refusal message ends with the name |
| Companions.EffectiveInfo | src/companions.ts:206-213 | with no override for the chosen manager the base entry is used, otherwise each field the override declares replaces the base's |
| Companions.EffectiveInfoStable | src/companions.ts:248-255 | merging the override in twice changes nothing, and an override declaring every field is used as is |
| Companions.InitialManager | src/companions.ts:121 | the first declared manager, or "" when the declared list is `managers: []` |
| Companions.InitialConfig | src/companions.ts:115-123 | one config per distinct lookup name (a missing name becomes "undefined"), each with nothing selected and the first declared manager |
| Companions.ConfigFromLastCompanion | src/companions.ts:119-123 | a config holds the install info of the last companion with that lookup name |
| Companions.Toggle | src/companions.ts:127-134 | a checkbox change flips that kernel's membership in the selection and leaves every other kernel as it was |
| Companions.ToggleTwice | src/companions.ts:129-134 | toggling the same kernel twice restores the selection |
| Companions.ApplyEvent | src/companions.ts:127-174 | a checkbox toggles that kernel in the named config, a kernel select sets the named config's manager, the server select sets the server manager; an unknown config key changes nothing and every other config keeps its value |
| Companions.ApplyEvents | src/companions.ts:127-174 | dialog events keep the set of configs, their install info, unique keys and a consistent selection; the server manager changes only through its own select |
| Companions.LaunchConfig | src/companions.ts:199-217 | the install jobs launched for one config are exactly one per selected kernel, with the config's manager and effective info |
| Companions.LaunchKernelTasks | src/companions.ts:192-219 | after "Install", exactly one task is launched per (config, selected kernel) pair, with no duplicates |
| Companions.AnyBundles | src/companions.ts:244-257 | true exactly when some config's effective entry says it bundles the extension |
| Companions.PromptInstallCompanions | src/companions.ts:100-261 | cancelling launches nothing and answers false; accepting launches exactly the selected kernel tasks and the server task when there is a server companion, and answers true exactly when no kernel companion bundles the extension |
| Companions.PromptLabel | src/companions.ts:64-71 | "Install Companions" when both companion kinds are present, "Install in Kernel" for kernel companions only, "Install Server Ext" otherwise; never the "Install Ext Only" label |
| Companions.FirstDialog | src/companions.ts:85-90 | the install button hands over to the second dialog; "Install Ext Only" answers true; anything else answers false |
| Companions.PresentCompanions | src/companions.ts:35-91 | handing over with no kernel-companion list fails (iterating an absent list); otherwise the answer follows the two dialogs, and after handing over the launched kernel tasks are exactly the selected (config, kernel) launches and a server task is launched exactly when the dialog is accepted and a server companion exists |
| Companions.ServerOnlyCompanionFails | src/companions.ts:64-115 | as written, with no kernel-companion list the prompt reads "Install Server Ext" and clicking it hands over to the install dialog, and the call to `presentCompanions` fails whatever the user does next |
| Companions.PresentCompanionsCorrected | src/companions.ts:85-90 | corrected: an absent kernel-companion list is read as empty, so the prompt button followed by an accepted dialog launches the server install whenever a server companion exists, and the run never fails |
| Companions.InstallOnKernel | src/companions.ts:264-303 | pip and conda run their install snippet for the effective package name and succeed exactly when the reply status is "ok", otherwise fail with "Error installing on kernel:\n<status>"; any other manager runs nothing and fails with "Unknown manager: <manager>" |
| Companions.UnknownManagerLeaksSession | src/companions.ts:214-216 | as written, a task's session is shut down exactly when the manager is pip or conda and the reply is "ok"; a companion declaring `managers: []` (manager "") starts a session and never shuts it down |
| Companions.KernelTaskEvents | src/companions.ts:201-217 | corrected lifecycle: a task starts its session first and shuts it down last, exactly once, whatever the install outcome; it executes a snippet exactly for pip or conda |
| Companions.SessionLog | src/companions.ts:197-219 | over all launched tasks, with the corrected lifecycle, there are as many shutdowns as sessions started, one per task |
| Companions.ServerMessages | src/companions.ts:309-346 | the terminal receives exactly the install command (`ServerCommand`, ending in a carriage return), then "exit\r" |
| Companions.ServerCommandRoundTrip | src/companions.ts:309-315 | the pip and conda commands name the package, so it can be read back from the command line; any other manager's command does not parse and is exactly a bare carriage return |
| Companions.Listen | src/companions.ts:317-334 | the server install resolves exactly when the terminal disconnects, at the first disconnect; stdout and other messages are ignored |
| Handlers.TableRows | jupyterlab_discovery/handlers.py:121-123 | a row is read exactly when it is in the body of a record of type "table" that has data with a body |
| Handlers.LoadOutdated | jupyterlab_discovery/handlers.py:103-130 | a timeout leaves the cache empty; otherwise a package is cached exactly when some table row with at least four cells names it |
| Handlers.OutdatedFromLastRow | jupyterlab_discovery/handlers.py:126-130 | a cached package's wanted and latest versions are cells 2 and 3 of the last row that names it |
| Handlers.Refreshed | jupyterlab_discovery/handlers.py:92-93 | a non-empty cache is kept; an empty one is replaced by a fresh load of the yarn outcome, which leaves it empty after a timeout |
| Handlers.RefreshedIdempotent | jupyterlab_discovery/handlers.py:92-93 | refreshing twice from the same yarn run gives the same cache as refreshing once |
| Handlers.GetPkgInfo | jupyterlab_discovery/handlers.py:90-101 | the package's description and version are kept; wanted and latest come from the cache for an outdated package, else both equal the installed version |
| Handlers.TimedOutReportsCurrent | jupyterlab_discovery/handlers.py:114-118 | when yarn timed out, every package reports its own version as wanted and latest |
| Handlers.ListExtensions | jupyterlab_discovery/handlers.py:49-68 | one entry per installed extension in order, enabled exactly when not disabled, never core, status "ok", latest = wanted version, installed = the version recorded in the app info |
| Handlers.ParseCommand | jupyterlab_discovery/handlers.py:150 | exactly the four command names are accepted |
| Handlers.CommandRoundTrip | jupyterlab_discovery/handlers.py:150-165 | every command's name parses back to it |
| Handlers.ValidatePost | jupyterlab_discovery/handlers.py:147-154 | 422 exactly when the command is unknown or the extension name is null or empty; otherwise the command is dispatched with that name |
| Handlers.UninstallStatus | jupyterlab_discovery/handlers.py:75-78 | uninstall reports "ok" exactly when something was uninstalled, else "error" |
| Handlers.ManagerStatus | jupyterlab_discovery/handlers.py:70-88 | only a failed uninstall reports a status other than "ok" |
| Handlers.Post | jupyterlab_discovery/handlers.py:144-171 | 422 for an invalid request, 500 with the exception's text when the manager raises, and 200 whenever the manager returns, whatever status it reports |
| Protocol.RequestDispatched | src/model.ts:168-176 | a request the client's guard lets through is dispatched by the server as the matching command with the entry's name (rejected only if the name is empty) |
| Protocol.ServerListShownInstalled | jupyterlab_discovery/handlers.py:53-67 | an extension the server lists is shown by the client as installed, with the server's description, enabled flag, status "ok", wanted version and installed version |

## Left out

- HTTP transport and `fetch`: requests are values. The fallback `[]` a failed registry fetch returns is not modelled, nor are `ServerConnection` errors.
- The response data `_performAction` casts to an installed list: the server's POST has no body, and nothing reads it.
- Numbers are unbounded integers. JavaScript's floating-point page arithmetic and `toString` formatting are not modelled.
- JavaScript objects list integer-like keys before other keys. `Dict` models insertion order only, which matches for package and kernel names that are not integer-like.
- Dialog rendering, captions, the cancel button, and the "-- Do nothing --" option's effect (it is an ordinary manager string here, so the server command is a bare carriage return).
- Concurrency and promise timing. The kernel sessions, terminal and dialogs run asynchronously; the model fixes the order the code awaits.
- The Python text of the pip and conda kernel snippets: a snippet is a value naming the package.
- The server companion's `.catch(() => terminal.shutdown())`: the promise from `installOnServer` never rejects, so it has no effect.
- Terminal stdout is ignored by the code, and the model ignores it too.
- Running `yarn outdated`, the subprocess, decoding and JSON parsing: the outcome is a parameter. A record without a `type` key (a `KeyError` in the code) is not modelled.
- Handlers.Refreshed: assumes each reload sees the same yarn output; reruns of the subprocess are not modelled separately.
- Handlers.Post: the 422 message text (Python `%r` formatting) is not modelled, and neither are a missing `cmd` or `extension_name` key (a `KeyError`). Falsy names other than null and "" do not arise, because names are strings.
- Handlers.ListExtensions: reading `package.json` (`_read_package`) and `get_app_info` are parameters; a missing package file is not modelled. A `package.json` without a `description` key (or, for a package not in the outdated cache, without a `version` key) raises `KeyError` at jupyterlab_discovery/handlers.py:61 or :98-99 and fails the whole listing; the model takes both fields as present.
- The effects of `install_extension`, `enable_extension` and friends on the JupyterLab app directory: they belong to JupyterLab; their outcome is a parameter.
- `ExtensionHandler.get` only serialises `list_extensions` and is not modelled separately. The server extension's route registration is also left out.
- How `KernelCompanion` lists are built (matching kernel specs to a package's declared kernel info): `src/companions.ts` imports `KernelCompanion` from `./model`, but src/model.ts as shown does not define it, and the code that builds these lists is not part of this model.
- ListModel.Merge: names that are properties of `Object.prototype` (`constructor`, `toString`, `__proto__`, …) are ordinary keys here. In the code, the lookup at src/model.ts:159 finds the inherited property, so a hit named `constructor` is dropped from `installable`; assigning to `__proto__` replaces the map's prototype instead of adding an entry. The model keeps such hits as ordinary entries.
- Companions.Toggle: for a kernel named like an `Object.prototype` property, `kernel.name in selected` (src/companions.ts:130) is already true, so the code only runs a no-op delete and that kernel can never be selected; the model selects it.
- ListModel.Merge: states the names, contents and exclusivity of the two lists, but not their order. ListModel.SearchOrder states the order of the search entries that `installable` filters.
- Companions.PresentCompanions: the first dialog's body text is not modelled, only its button label and outcome.
- Companions.EffectiveInfo: an override field explicitly set to `null` or `undefined` is treated as absent. In JavaScript it would overwrite the base field with that value.

## Findings

| source | as written | input that shows it | evidently intended | confidence | as-written member | corrected member |
|---|---|---|---|---|---|---|
| src/companions.ts:214-216 | the kernel session is shut down only in the success continuation of `installOnKernel` | a kernel companion whose install info declares `managers: []` (an absent `managers` would throw at line 121 before any session starts): the manager is "", `installOnKernel` rejects with "Unknown manager: ", and the session started for each selected kernel is never shut down (the same happens for an unrecognised manager and when the install reply status is not "ok") | shut the session down whatever the install outcome | medium, not executed | Companions.UnknownManagerLeaksSession | Companions.KernelTaskEvents |
| src/companions.ts:85-115 | the "Install Server Ext" button hands over to `promptInstallCompanions`, which iterates `kernelCompanions` unconditionally | no kernel-companion list and a server companion: the prompt reads "Install Server Ext" (lines 67-70), clicking it calls `promptInstallCompanions` (line 87), and `for (let entry of kernelCompanions)` (line 115) throws, so the server companion is never installed | treat an absent kernel-companion list as empty and install the server companion | medium, not executed (no caller of `presentCompanions` is part of this model) | Companions.ServerOnlyCompanionFails | Companions.PresentCompanionsCorrected |

=== FILE: companions.dfy ===
/** Companion installation (src/companions.ts): the choices the two dialogs
    collect, the install tasks they launch on kernels and on the server, the
    commands those tasks send, and the final decision whether the frontend
    extension itself may still be installed. Dialogs, kernel and terminal
    sessions are external: their answers and messages are inputs. */
module Companions {
  import opened Wrappers
  import opened Dict

  /** `IInstallInfoEntry`: what to install for one target; a missing field
      is None. */
  datatype InstallInfoEntry = InstallInfoEntry(name: Option<string>, bundlesExtension: Option<bool>)

  /** `IInstallInfo`: a base entry, the supported managers in order, and
      optional per-manager overrides of the base. */
  datatype InstallInfo = InstallInfo(
    base: InstallInfoEntry,
    managers: seq<string>,
    overrides: Option<map<string, InstallInfoEntry>>)

  /** The kernel spec fields used here: its name and display name. */
  datatype KernelSpec = KernelSpec(name: string, displayName: string)

  /** A kernel requirement with the available kernels it applies to. */
  datatype KernelCompanion = KernelCompanion(kernelInfo: InstallInfo, kernels: seq<KernelSpec>)

  const PipManager: string := "pip"
  const CondaManager: string := "conda"

  // ---------------------------------------------------------------------
  // Effective install information

  /** The override declared for a manager, if any. */
  function OverrideFor(info: InstallInfo, manager: string): Option<InstallInfoEntry> {
    if info.overrides.Some? && manager in info.overrides.value
    then Some(info.overrides.value[manager])
    else None
  }

  /** `{...info.base, ...override}`: each field of the override for the
      manager when it declares that field, else the base's field. */
  function EffectiveInfo(info: InstallInfo, manager: string): (r: InstallInfoEntry)
    ensures OverrideFor(info, manager).None? ==> r == info.base
    ensures OverrideFor(info, manager).Some? ==>
      var o := OverrideFor(info, manager).value;
      && r.name == (if o.name.Some? then o.name else info.base.name)
      && r.bundlesExtension == (if o.bundlesExtension.Some? then o.bundlesExtension else info.base.bundlesExtension)
  {
    match OverrideFor(info, manager)
    case None => info.base
    case Some(o) =>
      InstallInfoEntry(
        if o.name.Some? then o.name else info.base.name,
        if o.bundlesExtension.Some? then o.bundlesExtension else info.base.bundlesExtension)
  }

  /** Folding the effective entry back in as the base changes nothing, and
      an override declaring every field wins over any base. */
  lemma EffectiveInfoStable(info: InstallInfo, manager: string, base': InstallInfoEntry)
    ensures EffectiveInfo(info.(base := EffectiveInfo(info, manager)), manager) == EffectiveInfo(info, manager)
    ensures var o := OverrideFor(info, manager);
      o.Some? && o.value.name.Some? && o.value.bundlesExtension.Some? ==>
        EffectiveInfo(info.(base := base'), manager) == o.value
  {
  }

  /** `!!info.bundles_extension`: the companion delivers the frontend code. */
  predicate Bundles(e: InstallInfoEntry) {
    e.bundlesExtension == Some(true)
  }

  /** `managers[0] || ''`: the first declared manager, or the empty string. */
  function InitialManager(managers: seq<string>): (m: string)
    ensures |managers| > 0 ==> m == managers[0]
    ensures |managers| == 0 ==> m == ""
  {
    if |managers| > 0 then managers[0] else ""
  }

  // ---------------------------------------------------------------------
  // The selection the install dialog collects

  /** One kernel companion's choices: its manager and the selected kernels,
      keyed by kernel name. */
  datatype CompanionConfig = CompanionConfig(
    kernelInfo: InstallInfo,
    manager: string,
    selected: map<string, KernelSpec>)

  /** `base.name!` used as an object key: a missing name becomes "undefined". */
  function LookupName(info: InstallInfo): string {
    info.base.name.GetOr("undefined")
  }

  function ConfigPair(c: KernelCompanion): Option<(string, CompanionConfig)> {
    Some((LookupName(c.kernelInfo), CompanionConfig(c.kernelInfo, InitialManager(c.kernelInfo.managers), map[])))
  }

  /** The config object before any user input: one config per distinct
      lookup name, with the first declared manager and nothing selected. */
  function InitialConfig(companions: seq<KernelCompanion>): (config: Dict<CompanionConfig>)
    ensures UniqueKeys(config)
    ensures forall k :: k in Keys(config) <==>
      exists i :: 0 <= i < |companions| && LookupName(companions[i].kernelInfo) == k
    ensures forall i :: 0 <= i < |config| ==>
      && config[i].1.selected == map[]
      && config[i].1.manager == InitialManager(config[i].1.kernelInfo.managers)
      && LookupName(config[i].1.kernelInfo) == config[i].0
  {
    var config := Index(companions, ConfigPair);
    forall k
      ensures k in Keys(config) <==> exists i :: 0 <= i < |companions| && LookupName(companions[i].kernelInfo) == k
    {
      ConfigKey(companions, k);
    }
    forall i | 0 <= i < |config|
      ensures FreshConfig(config[i])
    {
      ConfigShape(companions, i);
    }
    config
  }

  lemma ConfigKey(companions: seq<KernelCompanion>, k: string)
    ensures k in Keys(Index(companions, ConfigPair)) <==>
      exists i :: 0 <= i < |companions| && LookupName(companions[i].kernelInfo) == k
  {
    IndexHasKey(companions, ConfigPair, k);
    if exists i :: 0 <= i < |companions| && LookupName(companions[i].kernelInfo) == k {
      var i :| 0 <= i < |companions| && LookupName(companions[i].kernelInfo) == k;
      assert Names(ConfigPair(companions[i]), k);
    }
  }

  /** A config as first created: nothing selected, the first manager, and
      filed under its own lookup name. */
  predicate FreshConfig(p: (string, CompanionConfig)) {
    && p.1.selected == map[]
    && p.1.manager == InitialManager(p.1.kernelInfo.managers)
    && LookupName(p.1.kernelInfo) == p.0
  }

  lemma ConfigShape(companions: seq<KernelCompanion>, i: int)
    requires 0 <= i < |Index(companions, ConfigPair)|
    ensures FreshConfig(Index(companions, ConfigPair)[i])
  {
    IndexEntry(companions, ConfigPair, i);
    var j :| 0 <= j < |companions| && ConfigPair(companions[j]) == Some(Index(companions, ConfigPair)[i]);
  }

  /** Two companions with the same lookup name share one config: the later
      companion's install info is the one kept. */
  lemma {:induction false} ConfigFromLastCompanion(companions: seq<KernelCompanion>, k: string, j: int)
    requires 0 <= j < |companions| && LookupName(companions[j].kernelInfo) == k
    requires forall l :: j < l < |companions| ==> LookupName(companions[l].kernelInfo) != k
    ensures Lookup(InitialConfig(companions), k).Some?
    ensures Lookup(InitialConfig(companions), k).value.kernelInfo == companions[j].kernelInfo
  {
    assert InitialConfig(companions) == Index(companions, ConfigPair);
    forall l | j < l < |companions|
      ensures !Names(ConfigPair(companions[l]), k)
    {
    }
    assert LastNaming(companions, ConfigPair, k, j);
    IndexLastWins(companions, ConfigPair, k, j);
  }

  /** The checkbox handler: a kernel is added when absent, removed when present. */
  function Toggle(selected: map<string, KernelSpec>, kernel: KernelSpec): (r: map<string, KernelSpec>)
    ensures kernel.name in r <==> kernel.name !in selected
    ensures kernel.name in r ==> r[kernel.name] == kernel
    ensures forall n :: n != kernel.name ==> (n in r <==> n in selected)
    ensures forall n :: n != kernel.name && n in r ==> r[n] == selected[n]
  {
    if kernel.name in selected then selected - {kernel.name} else selected[kernel.name := kernel]
  }

  /** Toggling the same checkbox twice restores the selection. */
  lemma ToggleTwice(selected: map<string, KernelSpec>, kernel: KernelSpec)
    requires kernel.name in selected ==> selected[kernel.name] == kernel
    ensures Toggle(Toggle(selected, kernel), kernel) == selected
  {
    var r := Toggle(Toggle(selected, kernel), kernel);
    assert r.Keys == selected.Keys;
  }

  /** Every selected kernel is filed under its own name. */
  ghost predicate ConsistentSelection(config: Dict<CompanionConfig>) {
    forall i, n :: 0 <= i < |config| && n in config[i].1.selected ==> config[i].1.selected[n].name == n
  }

  /** A user action in the install dialog. */
  datatype UiEvent =
    | CheckKernel(configKey: string, kernel: KernelSpec)
    | SelectKernelManager(configKey: string, manager: string)
    | SelectServerManager(manager: string)

  /** The dialog's model: the kernel configs and the server manager. */
  datatype Selection = Selection(config: Dict<CompanionConfig>, serverManager: string)

  /** The selection when the install dialog opens. */
  function InitialSelection(companions: seq<KernelCompanion>, server: Option<InstallInfo>): Selection {
    Selection(InitialConfig(companions), if server.Some? then InitialManager(server.value.managers) else "")
  }

  /** Rewrites the config under `key`, leaving the dictionary unchanged when
      the key is missing. */
  function UpdateConfig(config: Dict<CompanionConfig>, key: string, f: CompanionConfig -> CompanionConfig): Dict<CompanionConfig> {
    match Lookup(config, key)
    case None => config
    case Some(c) => Put(config, key, f(c))
  }

  /** The dialog's handlers: a checkbox toggles that kernel in the named
      config, a kernel select sets the named config's manager, the server
      select sets the server manager; an event for a missing config changes
      nothing, and every other config keeps its value. */
  function ApplyEvent(s: Selection, ev: UiEvent): (r: Selection)
    ensures ev.CheckKernel? && Lookup(s.config, ev.configKey).Some? ==>
      var c := Lookup(s.config, ev.configKey).value;
      Lookup(r.config, ev.configKey) == Some(c.(selected := Toggle(c.selected, ev.kernel)))
    ensures ev.SelectKernelManager? && Lookup(s.config, ev.configKey).Some? ==>
      var c := Lookup(s.config, ev.configKey).value;
      Lookup(r.config, ev.configKey) == Some(c.(manager := ev.manager))
    ensures !ev.SelectServerManager? && Lookup(s.config, ev.configKey).None? ==> r.config == s.config
    ensures !ev.SelectServerManager? ==>
      forall k :: k != ev.configKey ==> Lookup(r.config, k) == Lookup(s.config, k)
    ensures !ev.SelectServerManager? ==> r.serverManager == s.serverManager
    ensures ev.SelectServerManager? ==> r == s.(serverManager := ev.manager)
  {
    match ev
    case CheckKernel(key, kernel) =>
      s.(config := UpdateConfig(s.config, key, (c: CompanionConfig) => c.(selected := Toggle(c.selected, kernel))))
    case SelectKernelManager(key, m) =>
      s.(config := UpdateConfig(s.config, key, (c: CompanionConfig) => c.(manager := m)))
    case SelectServerManager(m) =>
      s.(serverManager := m)
  }

  /** Rewriting one config in place, keeping its install info and filing
      every selected kernel under its own name. */
  lemma ReplaceConfig(config: Dict<CompanionConfig>, idx: int, c': CompanionConfig)
    requires UniqueKeys(config) && ConsistentSelection(config)
    requires 0 <= idx < |config| && c'.kernelInfo == config[idx].1.kernelInfo
    requires forall n :: n in c'.selected ==> c'.selected[n].name == n
    ensures var r := config[idx := (config[idx].0, c')];
      && UniqueKeys(r) && ConsistentSelection(r)
      && Keys(r) == Keys(config)
      && (forall i :: 0 <= i < |r| ==> r[i].1.kernelInfo == config[i].1.kernelInfo)
  {
    ReplaceKeys(config, idx, c');
  }

  /** One user action rewrites at most the config it names, in place. */
  lemma ApplyEventStep(p: Selection, ev: UiEvent)
    requires UniqueKeys(p.config) && ConsistentSelection(p.config)
    ensures var r := ApplyEvent(p, ev);
      && UniqueKeys(r.config) && ConsistentSelection(r.config)
      && Keys(r.config) == Keys(p.config)
      && (forall i :: 0 <= i < |r.config| ==> r.config[i].1.kernelInfo == p.config[i].1.kernelInfo)
      && (!ev.SelectServerManager? ==> r.serverManager == p.serverManager)
  {
    if !ev.SelectServerManager? {
      var key := ev.configKey;
      var c := Lookup(p.config, key);
      if c.Some? {
        var c' := if ev.CheckKernel? then c.value.(selected := Toggle(c.value.selected, ev.kernel))
                  else c.value.(manager := ev.manager);
        var idx := Find(Keys(p.config), key);
        assert p.config[idx].0 == key && p.config[idx].1 == c.value;
        assert ApplyEvent(p, ev).config == p.config[idx := (key, c')];
        ReplaceConfig(p.config, idx, c');
      }
    }
  }

  /** The selection after the user's actions, in order. User actions choose
      managers and kernels but never add, drop or alter a companion, and
      keep every kernel filed under its own name. */
  function ApplyEvents(s: Selection, events: seq<UiEvent>): (r: Selection)
    requires UniqueKeys(s.config) && ConsistentSelection(s.config)
    ensures UniqueKeys(r.config) && ConsistentSelection(r.config)
    ensures Keys(r.config) == Keys(s.config)
    ensures forall i :: 0 <= i < |r.config| ==> r.config[i].1.kernelInfo == s.config[i].1.kernelInfo
    ensures (forall i :: 0 <= i < |events| ==> !events[i].SelectServerManager?) ==> r.serverManager == s.serverManager
  {
    if |events| == 0 then s
    else
      var p := ApplyEvents(s, events[..|events| - 1]);
      var ev := events[|events| - 1];
      assert forall i :: 0 <= i < |events| - 1 ==> events[..|events| - 1][i] == events[i];
      ApplyEventStep(p, ev);
      ApplyEvent(p, ev)
  }

  /** The selection the install dialog holds once the user's actions are
      applied: the companions' configs, in order, with unique keys. */
  function Chosen(companions: seq<KernelCompanion>, server: Option<InstallInfo>, events: seq<UiEvent>): (sel: Selection)
    ensures UniqueKeys(sel.config) && ConsistentSelection(sel.config)
    ensures Keys(sel.config) == Keys(InitialConfig(companions))
  {
    var init := InitialSelection(companions, server);
    assert ConsistentSelection(init.config);
    ApplyEvents(init, events)
  }

  // ---------------------------------------------------------------------
  // Launching the install tasks

  /** One kernel install: the companion's config key, the kernel to start a
      session on, and the manager and effective info to install with. */
  datatype KernelTask = KernelTask(configKey: string, kernel: KernelSpec, manager: string, info: InstallInfoEntry)

  /** `t` is the install job launched for a selected kernel of config `i`. */
  ghost predicate LaunchOf(config: Dict<CompanionConfig>, i: int, t: KernelTask) {
    && 0 <= i < |config|
    && t.configKey == config[i].0
    && t.kernel in config[i].1.selected.Values
    && t.manager == config[i].1.manager
    && t.info == EffectiveInfo(config[i].1.kernelInfo, config[i].1.manager)
  }

  ghost predicate Launched(config: Dict<CompanionConfig>, t: KernelTask) {
    exists i :: 0 <= i < |config| && LaunchOf(config, i, t)
  }

  /** One config's install jobs: one per selected kernel. */
  method LaunchConfig(key: string, c: CompanionConfig) returns (batch: seq<KernelTask>)
    requires forall n :: n in c.selected ==> c.selected[n].name == n
    ensures forall t :: t in batch <==>
      t.configKey == key && t.kernel in c.selected.Values && t.manager == c.manager
      && t.info == EffectiveInfo(c.kernelInfo, c.manager)
    ensures forall a, b :: 0 <= a < b < |batch| ==> batch[a].kernel.name != batch[b].kernel.name
  {
    var info := EffectiveInfo(c.kernelInfo, c.manager);
    var names := c.selected.Keys;
    batch := [];
    while names != {}
      invariant names <= c.selected.Keys
      invariant forall t :: t in batch <==>
        t.configKey == key && t.manager == c.manager && t.info == info
        && t.kernel.name in c.selected.Keys - names && t.kernel == c.selected[t.kernel.name]
      invariant forall a, b :: 0 <= a < b < |batch| ==> batch[a].kernel.name != batch[b].kernel.name
      decreases names
    {
      var n :| n in names;
      batch := batch + [KernelTask(key, c.selected[n], c.manager, info)];
      names := names - {n};
    }
    forall t: KernelTask | t.kernel in c.selected.Values
      ensures t.kernel.name in c.selected && t.kernel == c.selected[t.kernel.name]
    {
      var n :| n in c.selected && c.selected[n] == t.kernel;
    }
  }

  /** The kernel sessions started once the install dialog is accepted: one
      task per (config, selected kernel) pair, each launched once. */
  method LaunchKernelTasks(config: Dict<CompanionConfig>) returns (tasks: seq<KernelTask>)
    requires UniqueKeys(config) && ConsistentSelection(config)
    ensures forall t :: t in tasks <==> Launched(config, t)
    ensures forall a, b :: 0 <= a < b < |tasks| ==> tasks[a] != tasks[b]
  {
    tasks := [];
    var i := 0;
    while i < |config|
      invariant 0 <= i <= |config|
      invariant forall t :: t in tasks <==> exists j :: 0 <= j < i && LaunchOf(config, j, t)
      invariant forall a, b :: 0 <= a < b < |tasks| ==> tasks[a] != tasks[b]
    {
      var batch := LaunchConfig(config[i].0, config[i].1);
      forall a, b | 0 <= a < |tasks| && 0 <= b < |batch|
        ensures tasks[a] != batch[b]
      {
        assert tasks[a] in tasks;
        var j :| 0 <= j < i && LaunchOf(config, j, tasks[a]);
        assert batch[b] in batch;
        assert config[j].0 != config[i].0;
      }
      forall t | t in batch
        ensures LaunchOf(config, i, t)
      {
      }
      forall t | LaunchOf(config, i, t)
        ensures t in batch
      {
      }
      tasks := tasks + batch;
      i := i + 1;
    }
  }

  /** True when some kernel config's effective info bundles the frontend. */
  function AnyBundles(config: Dict<CompanionConfig>): (b: bool)
    ensures b <==> exists i :: 0 <= i < |config| && Bundles(EffectiveInfo(config[i].1.kernelInfo, config[i].1.manager))
  {
    if |config| == 0 then false
    else
      var rest := AnyBundles(config[1..]);
      assert forall i :: 0 < i < |config| ==> config[i] == config[1..][i - 1];
      Bundles(EffectiveInfo(config[0].1.kernelInfo, config[0].1.manager)) || rest
  }

  // ---------------------------------------------------------------------
  // One run of the install dialog

  /** The messages the server task sends, in order. */
  datatype ServerTask = ServerTask(manager: string, info: InstallInfoEntry, sent: seq<string>)

  /** What one run of the install dialog did and decided. */
  datatype CompanionRun = CompanionRun(proceed: bool, kernelTasks: seq<KernelTask>, serverTask: Option<ServerTask>)

  /** `promptInstallCompanions`: apply the user's choices, and if the dialog
      is accepted launch one kernel task per selected kernel and, when a
      server companion exists, one terminal task; the frontend install
      proceeds exactly when the dialog is accepted and no kernel config
      bundles the frontend. The server companion is not consulted. */
  method PromptInstallCompanions(
    companions: seq<KernelCompanion>, server: Option<InstallInfo>, events: seq<UiEvent>, accepted: bool)
    returns (run: CompanionRun)
    ensures !accepted ==> run == CompanionRun(false, [], None)
    ensures var sel := Chosen(companions, server, events);
      && (run.proceed <==> accepted && forall i :: 0 <= i < |sel.config| ==>
            !Bundles(EffectiveInfo(sel.config[i].1.kernelInfo, sel.config[i].1.manager)))
      && (forall t :: t in run.kernelTasks <==> accepted && Launched(sel.config, t))
      && (run.serverTask.Some? <==> accepted && server.Some?)
      && (run.serverTask.Some? ==>
            var info := EffectiveInfo(server.value, sel.serverManager);
            run.serverTask.value == ServerTask(sel.serverManager, info, ServerMessages(sel.serverManager, info)))
    ensures forall a, b :: 0 <= a < b < |run.kernelTasks| ==> run.kernelTasks[a] != run.kernelTasks[b]
  {
    var sel := Chosen(companions, server, events);
    if !accepted {
      return CompanionRun(false, [], None);
    }
    var tasks := LaunchKernelTasks(sel.config);
    var serverTask := None;
    if server.Some? {
      var info := EffectiveInfo(server.value, sel.serverManager);
      serverTask := Some(ServerTask(sel.serverManager, info, ServerMessages(sel.serverManager, info)));
    }
    run := CompanionRun(!AnyBundles(sel.config), tasks, serverTask);
  }

  // ---------------------------------------------------------------------
  // The first dialog

  const ExtOnlyLabel: string := "Install Ext Only"

  /** The label of the button that leads to the install dialog. An empty
      kernel companion list still counts as given: only a missing list
      does not. */
  function PromptLabel(kernelCompanions: Option<seq<KernelCompanion>>, server: Option<InstallInfo>): (p: string)
    ensures p != ExtOnlyLabel
    ensures p == "Install Companions" <==> kernelCompanions.Some? && server.Some?
    ensures p == "Install in Kernel" <==> kernelCompanions.Some? && server.None?
    ensures p == "Install Server Ext" <==> kernelCompanions.None?
  {
    if kernelCompanions.Some? && server.Some? then "Install Companions"
    else if kernelCompanions.Some? then "Install in Kernel"
    else "Install Server Ext"
  }

  datatype FirstAnswer = Delegate | Answer(proceed: bool)

  /** `presentCompanions`' answer for the label of the clicked button. */
  function FirstDialog(kernelCompanions: Option<seq<KernelCompanion>>, server: Option<InstallInfo>, button: string): (a: FirstAnswer)
    ensures a == Delegate <==> button == PromptLabel(kernelCompanions, server)
    ensures a == Answer(true) <==> button == ExtOnlyLabel
    ensures a == Answer(false) <==> button != ExtOnlyLabel && button != PromptLabel(kernelCompanions, server)
  {
    if button == PromptLabel(kernelCompanions, server) then Delegate
    else Answer(button == ExtOnlyLabel)
  }

  /** `presentCompanions` followed, when delegated, by the install dialog.
      The frontend install proceeds exactly for "Install Ext Only", or for
      the prompt button followed by an accepted install dialog in which no
      kernel config bundles the frontend. Delegating with no kernel
      companion list fails while iterating it. */
  method PresentCompanions(
    kernelCompanions: Option<seq<KernelCompanion>>, server: Option<InstallInfo>,
    button: string, events: seq<UiEvent>, accepted: bool)
    returns (r: Result<CompanionRun, string>)
    ensures r.Failure? <==> button == PromptLabel(kernelCompanions, server) && kernelCompanions.None?
    ensures r.Success? ==> (r.value.proceed <==>
      button == ExtOnlyLabel
      || (button == PromptLabel(kernelCompanions, server) && accepted
          && !AnyBundles(Chosen(kernelCompanions.value, server, events).config)))
    ensures r.Success? && (|r.value.kernelTasks| > 0 || r.value.serverTask.Some?) ==>
      button == PromptLabel(kernelCompanions, server) && accepted
    ensures r.Success? && button == PromptLabel(kernelCompanions, server) ==>
      && (forall t :: t in r.value.kernelTasks <==>
            accepted && Launched(Chosen(kernelCompanions.value, server, events).config, t))
      && (r.value.serverTask.Some? <==> accepted && server.Some?)
  {
    match FirstDialog(kernelCompanions, server, button)
    case Answer(p) =>
      r := Success(CompanionRun(p, [], None));
    case Delegate =>
      if kernelCompanions.None? {
        r := Failure("kernelCompanions is not iterable");
      } else {
        var run := PromptInstallCompanions(kernelCompanions.value, server, events, accepted);
        r := Success(run);
      }
  }

  /** As written, a server-only companion cannot be installed: with no
      kernel companion list the prompt reads "Install Server Ext", that
      button hands over to the install dialog, and the dialog fails while
      iterating the absent list, whatever the user then does. */
  method ServerOnlyCompanionFails(server: InstallInfo, events: seq<UiEvent>, accepted: bool)
    returns (r: Result<CompanionRun, string>)
    ensures PromptLabel(None, Some(server)) == "Install Server Ext"
    ensures FirstDialog(None, Some(server), "Install Server Ext") == Delegate
    ensures r.Failure?
  {
    r := PresentCompanions(None, Some(server), "Install Server Ext", events, accepted);
  }

  /** `presentCompanions` with an absent kernel companion list read as an
      empty one: it never fails, and the prompt button followed by an
      accepted dialog always launches the server install when there is a
      server companion. */
  method PresentCompanionsCorrected(
    kernelCompanions: Option<seq<KernelCompanion>>, server: Option<InstallInfo>,
    button: string, events: seq<UiEvent>, accepted: bool)
    returns (run: CompanionRun)
    ensures button == PromptLabel(kernelCompanions, server) ==>
      && (run.serverTask.Some? <==> accepted && server.Some?)
      && (forall t :: t in run.kernelTasks <==>
            accepted && Launched(Chosen(kernelCompanions.GetOr([]), server, events).config, t))
      && (run.proceed <==> accepted && !AnyBundles(Chosen(kernelCompanions.GetOr([]), server, events).config))
    ensures button != PromptLabel(kernelCompanions, server) ==>
      run == CompanionRun(button == ExtOnlyLabel, [], None)
  {
    match FirstDialog(kernelCompanions, server, button)
    case Answer(p) =>
      run := CompanionRun(p, [], None);
    case Delegate =>
      run := PromptInstallCompanions(kernelCompanions.GetOr([]), server, events, accepted);
  }


  // ---------------------------------------------------------------------
  // Installing on a kernel

  /** The Python snippet run in the kernel, by manager and package name. */
  datatype Snippet = PipSnippet(packageName: string) | CondaSnippet(packageName: string)

  /** `${info.name}` in a template: a missing name prints as "undefined". */
  function PackageName(info: InstallInfoEntry): string {
    info.name.GetOr("undefined")
  }

  datatype KernelOutcome = KernelOutcome(executed: Option<Snippet>, result: Result<(), string>)

  /** `installOnKernel` given the status of the kernel's execute reply:
      only pip and conda run a snippet; any other manager is rejected
      without executing anything, and a reply other than "ok" is an error. */
  function InstallOnKernel(manager: string, info: InstallInfoEntry, replyStatus: string): (o: KernelOutcome)
    ensures o.executed.Some? <==> manager == PipManager || manager == CondaManager
    ensures o.executed.Some? ==> o.executed.value.packageName == PackageName(info)
    ensures o.executed.Some? ==> (o.executed.value.PipSnippet? <==> manager == PipManager)
    ensures o.executed.None? ==> o.result == Failure("Unknown manager: " + manager)
    ensures o.executed.Some? ==> (o.result.Success? <==> replyStatus == "ok")
    ensures o.executed.Some? && o.result.Failure? ==> o.result.error == "Error installing on kernel:\n" + replyStatus
  {
    var snippet :=
      if manager == PipManager then Some(PipSnippet(PackageName(info)))
      else if manager == CondaManager then Some(CondaSnippet(PackageName(info)))
      else None;
    match snippet
    case None => KernelOutcome(None, Failure("Unknown manager: " + manager))
    case Some(s) =>
      KernelOutcome(snippet, if replyStatus == "ok" then Success(()) else Failure("Error installing on kernel:\n" + replyStatus))
  }

  /** What happens to the ephemeral session of one kernel task. */
  datatype SessionEvent = StartSession(kernelName: string) | Execute(snippet: Snippet) | ShutdownSession

  /** One kernel task as written: the session is shut down only after a
      successful install. */
  function KernelTaskEventsAsWritten(t: KernelTask, replyStatus: string): seq<SessionEvent> {
    var o := InstallOnKernel(t.manager, t.info, replyStatus);
    [StartSession(t.kernel.name)]
      + (if o.executed.Some? then [Execute(o.executed.value)] else [])
      + (if o.result.Success? then [ShutdownSession] else [])
  }

  /** As written, a session is shut down exactly when the install
      succeeds: an unknown manager (such as the "" a companion without
      managers gets) or a reply other than "ok" leaves it running. */
  lemma UnknownManagerLeaksSession(t: KernelTask, replyStatus: string)
    ensures ShutdownSession in KernelTaskEventsAsWritten(t, replyStatus) <==>
      (t.manager == PipManager || t.manager == CondaManager) && replyStatus == "ok"
    ensures KernelTaskEventsAsWritten(t, replyStatus)[0] == StartSession(t.kernel.name)
    ensures t.manager == InitialManager([]) ==>
      KernelTaskEventsAsWritten(t, replyStatus) == [StartSession(t.kernel.name)]
  {
  }

  /** One kernel task with the session released on every path: started
      first, shut down last and exactly once, with the snippet executed in
      between exactly when the manager is known. */
  function KernelTaskEvents(t: KernelTask, replyStatus: string): (evs: seq<SessionEvent>)
    ensures |evs| >= 2 && evs[0] == StartSession(t.kernel.name) && evs[|evs| - 1] == ShutdownSession
    ensures forall i :: 0 <= i < |evs| - 1 ==> evs[i] != ShutdownSession
    ensures (exists i :: 0 <= i < |evs| && evs[i].Execute?) <==> t.manager == PipManager || t.manager == CondaManager
  {
    var o := InstallOnKernel(t.manager, t.info, replyStatus);
    var middle := if o.executed.Some? then [Execute(o.executed.value)] else [];
    var evs := [StartSession(t.kernel.name)] + middle + [ShutdownSession];
    assert o.executed.Some? ==> evs[1].Execute?;
    evs
  }

  function StartCount(evs: seq<SessionEvent>): nat {
    if |evs| == 0 then 0 else (if evs[0].StartSession? then 1 else 0) + StartCount(evs[1..])
  }

  function ShutdownCount(evs: seq<SessionEvent>): nat {
    if |evs| == 0 then 0 else (if evs[0] == ShutdownSession then 1 else 0) + ShutdownCount(evs[1..])
  }

  lemma {:induction false} CountsAppend(a: seq<SessionEvent>, b: seq<SessionEvent>)
    ensures StartCount(a + b) == StartCount(a) + StartCount(b)
    ensures ShutdownCount(a + b) == ShutdownCount(a) + ShutdownCount(b)
  {
    if |a| > 0 {
      assert (a + b)[1..] == a[1..] + b;
      CountsAppend(a[1..], b);
    } else {
      assert a + b == b;
    }
  }

  lemma {:induction false} TaskCounts(t: KernelTask, replyStatus: string)
    ensures StartCount(KernelTaskEvents(t, replyStatus)) == 1
    ensures ShutdownCount(KernelTaskEvents(t, replyStatus)) == 1
  {
    var evs := KernelTaskEvents(t, replyStatus);
    var o := InstallOnKernel(t.manager, t.info, replyStatus);
    if o.executed.Some? {
      assert evs == [StartSession(t.kernel.name)] + ([Execute(o.executed.value)] + [ShutdownSession]);
      CountsAppend([StartSession(t.kernel.name)], [Execute(o.executed.value)] + [ShutdownSession]);
      CountsAppend([Execute(o.executed.value)], [ShutdownSession]);
    } else {
      assert evs == [StartSession(t.kernel.name)] + [ShutdownSession];
      CountsAppend([StartSession(t.kernel.name)], [ShutdownSession]);
    }
  }

  /** The session log of the launched kernel tasks, each given the status of
      its execute reply: as many shutdowns as sessions started, one per task. */
  function SessionLog(tasks: seq<KernelTask>, replies: seq<string>): (log: seq<SessionEvent>)
    requires |replies| == |tasks|
    ensures StartCount(log) == |tasks| && ShutdownCount(log) == |tasks|
  {
    if |tasks| == 0 then []
    else
      var first := KernelTaskEvents(tasks[0], replies[0]);
      var rest := SessionLog(tasks[1..], replies[1..]);
      TaskCounts(tasks[0], replies[0]);
      CountsAppend(first, rest);
      first + rest
  }

  // ---------------------------------------------------------------------
  // Installing on the server

  const PipCommandPrefix: string := "pip install "
  const CondaCommandPrefix: string := "conda install --yes --quiet "

  /** The shell line `installOnServer` sends first; an unknown manager
      sends a bare carriage return. */
  function ServerCommand(manager: string, info: InstallInfoEntry): string {
    if manager == PipManager then PipCommandPrefix + PackageName(info) + "\r"
    else if manager == CondaManager then CondaCommandPrefix + PackageName(info) + "\r"
    else "\r"
  }

  /** The terminal input: the install command, then `exit`. */
  function ServerMessages(manager: string, info: InstallInfoEntry): (msgs: seq<string>)
    ensures |msgs| == 2 && msgs[0] == ServerCommand(manager, info) && msgs[1] == "exit\r"
    ensures |msgs[0]| > 0 && msgs[0][|msgs[0]| - 1] == '\r'
  {
    [ServerCommand(manager, info), "exit\r"]
  }

  /** Reads a command line back into its manager and package. */
  function ParseServerCommand(cmd: string): Option<(string, string)> {
    if |cmd| == 0 || cmd[|cmd| - 1] != '\r' then None
    else
      var line := cmd[..|cmd| - 1];
      if |line| >= |PipCommandPrefix| && line[..|PipCommandPrefix|] == PipCommandPrefix
      then Some((PipManager, line[|PipCommandPrefix|..]))
      else if |line| >= |CondaCommandPrefix| && line[..|CondaCommandPrefix|] == CondaCommandPrefix
      then Some((CondaManager, line[|CondaCommandPrefix|..]))
      else None
  }

  /** The command names the manager and the package for pip and conda, and
      installs nothing for any other manager: it is a bare carriage return. */
  lemma ServerCommandRoundTrip(manager: string, info: InstallInfoEntry)
    ensures ParseServerCommand(ServerCommand(manager, info)) ==
      if manager == PipManager || manager == CondaManager then Some((manager, PackageName(info))) else None
    ensures ParseServerCommand(ServerCommand(manager, info)).None? ==> ServerCommand(manager, info) == "\r"
  {
    var cmd := ServerCommand(manager, info);
    var line := cmd[..|cmd| - 1];
    if manager == PipManager {
      assert line == PipCommandPrefix + PackageName(info);
      assert line[..|PipCommandPrefix|] == PipCommandPrefix;
    } else if manager == CondaManager {
      assert line == CondaCommandPrefix + PackageName(info);
      assert line[..|PipCommandPrefix|] != PipCommandPrefix by {
        assert line[0] == 'c';
      }
      assert line[..|CondaCommandPrefix|] == CondaCommandPrefix;
    }
  }

  /** A message the terminal session delivers to the server install's handler. */
  datatype TerminalMessage = Stdout(content: seq<string>) | Disconnect | OtherMessage(kind: string)

  /** The server task's promise: pending, or resolved at a message index. */
  datatype Wait = Waiting | Resolved(at: nat)

  /** The message handler: a `disconnect` resolves and detaches it; other
      messages, output included, change nothing. */
  function OnMessage(w: Wait, msg: TerminalMessage, index: nat): Wait {
    if w.Waiting? && msg.Disconnect? then Resolved(index) else w
  }

  /** The handler folded over the messages received: the install resolves
      exactly when a `disconnect` arrives, at the first one. */
  function Listen(msgs: seq<TerminalMessage>): (w: Wait)
    ensures w.Resolved? <==> exists i :: 0 <= i < |msgs| && msgs[i].Disconnect?
    ensures w.Resolved? ==> w.at < |msgs| && msgs[w.at].Disconnect?
    ensures w.Resolved? ==> forall j :: 0 <= j < w.at ==> !msgs[j].Disconnect?
  {
    if |msgs| == 0 then Waiting
    else
      var n := |msgs| - 1;
      var w := Listen(msgs[..n]);
      assert forall i :: 0 <= i < n ==> msgs[..n][i] == msgs[i];
      OnMessage(w, msgs[n], n)
  }
}

=== FILE: dict.dfy ===
/** An insertion-ordered dictionary keyed by strings: the behaviour shared by
    a JavaScript object used as a map and by a Python dict. Assigning to a key
    that is already present replaces its value in place; assigning to a new
    key appends it, so iteration follows first insertion. */
module Dict {
  import opened Wrappers

  type Dict<V> = seq<(string, V)>

  function Keys<V>(d: Dict<V>): (ks: seq<string>)
    ensures |ks| == |d|
    ensures forall i :: 0 <= i < |d| ==> ks[i] == d[i].0
  {
    if |d| == 0 then [] else [d[0].0] + Keys(d[1..])
  }

  function Values<V>(d: Dict<V>): (vs: seq<V>)
    ensures |vs| == |d|
    ensures forall i :: 0 <= i < |d| ==> vs[i] == d[i].1
  {
    if |d| == 0 then [] else [d[0].1] + Values(d[1..])
  }

  ghost predicate UniqueKeys<V>(d: Dict<V>) {
    forall i, j :: 0 <= i < j < |d| ==> d[i].0 != d[j].0
  }

  /** Position of the first occurrence of `k` in `ks`, or -1. */
  function Find(ks: seq<string>, k: string): (i: int)
    ensures -1 <= i < |ks|
    ensures i == -1 <==> k !in ks
    ensures 0 <= i ==> ks[i] == k && k !in ks[..i]
  {
    if |ks| == 0 then -1
    else if ks[0] == k then 0
    else
      var i := Find(ks[1..], k);
      if i == -1 then -1
      else
        assert ks[..i + 1] == [ks[0]] + ks[1..][..i];
        i + 1
  }

  lemma FindAppend(ks: seq<string>, k: string, k': string)
    requires k' != k
    ensures Find(ks + [k], k') == Find(ks, k')
  {
    var i := Find(ks + [k], k');
    if i != -1 {
      assert (ks + [k])[..i] == ks[..i];
    }
  }

  /** `d[k]`, or None when the key is missing. */
  function Lookup<V>(d: Dict<V>, k: string): (r: Option<V>)
    ensures r.Some? <==> k in Keys(d)
    ensures r.Some? ==> (k, r.value) in d
    ensures UniqueKeys(d) ==> forall i :: 0 <= i < |d| && d[i].0 == k ==> r == Some(d[i].1)
  {
    var i := Find(Keys(d), k);
    if i == -1 then None
    else
      assert UniqueKeys(d) ==> forall j :: 0 <= j < |d| && d[j].0 == k ==> j == i;
      Some(d[i].1)
  }

  /** `d[k] = v`. */
  function Put<V>(d: Dict<V>, k: string, v: V): (r: Dict<V>)
    ensures Keys(r) == if k in Keys(d) then Keys(d) else Keys(d) + [k]
    ensures Lookup(r, k) == Some(v)
    ensures forall k' :: k' != k ==> Lookup(r, k') == Lookup(d, k')
    ensures UniqueKeys(d) ==> UniqueKeys(r)
  {
    var i := Find(Keys(d), k);
    if i == -1 then
      PutNew(d, k, v);
      d + [(k, v)]
    else
      PutExisting(d, k, v, i);
      d[i := (k, v)]
  }

  lemma PutNew<V>(d: Dict<V>, k: string, v: V)
    requires k !in Keys(d)
    ensures var r := d + [(k, v)];
      && Keys(r) == Keys(d) + [k]
      && Lookup(r, k) == Some(v)
      && (forall k' :: k' != k ==> Lookup(r, k') == Lookup(d, k'))
      && (UniqueKeys(d) ==> UniqueKeys(r))
  {
    var r := d + [(k, v)];
    assert Keys(r) == Keys(d) + [k];
    forall k' | k' != k
      ensures Lookup(r, k') == Lookup(d, k')
    {
      FindAppend(Keys(d), k, k');
    }
    if UniqueKeys(d) {
      forall a, b | 0 <= a < b < |r|
        ensures r[a].0 != r[b].0
      {
        if b == |d| {
          assert Keys(d)[a] == d[a].0;
        }
      }
    }
  }

  lemma PutExisting<V>(d: Dict<V>, k: string, v: V, i: int)
    requires i == Find(Keys(d), k) && i != -1
    ensures var r := d[i := (k, v)];
      && Keys(r) == Keys(d)
      && Lookup(r, k) == Some(v)
      && (forall k' :: k' != k ==> Lookup(r, k') == Lookup(d, k'))
      && (UniqueKeys(d) ==> UniqueKeys(r))
  {
    assert d[i].0 == k;
    ReplaceKeys(d, i, v);
    forall k' | k' != k
      ensures Lookup(d[i := (k, v)], k') == Lookup(d, k')
    {
      ReplaceOther(d, i, v, k');
    }
  }

  /** Replacing the value at a position keeps every other key's value. */
  lemma ReplaceOther<V>(d: Dict<V>, i: int, v: V, k': string)
    requires 0 <= i < |d| && k' != d[i].0
    ensures Lookup(d[i := (d[i].0, v)], k') == Lookup(d, k')
  {
    var r := d[i := (d[i].0, v)];
    ReplaceKeys(d, i, v);
    var j := Find(Keys(d), k');
    assert j != i;
  }

  /** Replacing the value at a position keeps the key sequence. */
  lemma ReplaceKeys<V>(d: Dict<V>, i: int, v: V)
    requires 0 <= i < |d|
    ensures Keys(d[i := (d[i].0, v)]) == Keys(d)
    ensures UniqueKeys(d) ==> UniqueKeys(d[i := (d[i].0, v)])
  {
    var r := d[i := (d[i].0, v)];
    assert forall j :: 0 <= j < |d| ==> Keys(r)[j] == Keys(d)[j];
  }

  /** True when an optional key/value pair is present and carries key `k`. */
  predicate Names<V>(o: Option<(string, V)>, k: string) {
    o.Some? && o.value.0 == k
  }

  /** Walks `items` in order and, for each item that `f` turns into a pair,
      assigns that pair into a dictionary that starts empty: the shape of every
      "for each record: if wanted, entries[key] = value" loop in the source. */
  function Index<T, V>(items: seq<T>, f: T -> Option<(string, V)>): (d: Dict<V>)
    ensures UniqueKeys(d)
  {
    if |items| == 0 then []
    else
      var d := Index(items[..|items| - 1], f);
      var o := f(items[|items| - 1]);
      if o.Some? then Put(d, o.value.0, o.value.1) else d
  }

  /** Item `i` is the last one that `f` files under key `k`. */
  ghost predicate LastNaming<T, V>(items: seq<T>, f: T -> Option<(string, V)>, k: string, i: int) {
    && 0 <= i < |items|
    && Names(f(items[i]), k)
    && forall j :: i < j < |items| ==> !Names(f(items[j]), k)
  }

  /** One step of `Index`: the dictionary of a non-empty sequence is that of
      its prefix with the last item's pair (if any) assigned. */
  lemma IndexStep<T, V>(items: seq<T>, f: T -> Option<(string, V)>)
    requires |items| > 0
    ensures var p := Index(items[..|items| - 1], f);
      var o := f(items[|items| - 1]);
      Index(items, f) == if o.Some? then Put(p, o.value.0, o.value.1) else p
  {
  }

  /** A key is present exactly when some item is filed under it. */
  lemma {:induction false} IndexHasKey<T, V>(items: seq<T>, f: T -> Option<(string, V)>, k: string)
    ensures k in Keys(Index(items, f)) <==> exists i :: 0 <= i < |items| && Names(f(items[i]), k)
  {
    if |items| > 0 {
      var n := |items| - 1;
      var p := items[..n];
      IndexHasKey(p, f, k);
      IndexStep(items, f);
      if exists i :: 0 <= i < |items| && Names(f(items[i]), k) {
        var i :| 0 <= i < |items| && Names(f(items[i]), k);
        if i < n {
          assert p[i] == items[i];
        }
      }
      if exists i :: 0 <= i < |p| && Names(f(p[i]), k) {
        var i :| 0 <= i < |p| && Names(f(p[i]), k);
        assert items[i] == p[i];
      }
    }
  }

  /** The value of a key comes from the last item filed under it: later
      assignments overwrite earlier ones. */
  lemma {:induction false} IndexLastWins<T, V>(items: seq<T>, f: T -> Option<(string, V)>, k: string, i: int)
    requires LastNaming(items, f, k, i)
    ensures Lookup(Index(items, f), k) == Some(f(items[i]).value.1)
  {
    var n := |items| - 1;
    var p := items[..n];
    IndexStep(items, f);
    if i < n {
      assert !Names(f(items[n]), k);
      assert p[i] == items[i];
      forall j | i < j < |p|
        ensures !Names(f(p[j]), k)
      {
        assert p[j] == items[j];
      }
      IndexLastWins(p, f, k, i);
    }
  }

  /** Presence and value of a key in `Index`, in one statement. */
  lemma IndexLookup<T, V>(items: seq<T>, f: T -> Option<(string, V)>, k: string)
    ensures Lookup(Index(items, f), k).Some? <==> exists i :: 0 <= i < |items| && Names(f(items[i]), k)
    ensures forall i :: LastNaming(items, f, k, i) ==> Lookup(Index(items, f), k) == Some(f(items[i]).value.1)
  {
    IndexHasKey(items, f, k);
    forall i | LastNaming(items, f, k, i)
      ensures Lookup(Index(items, f), k) == Some(f(items[i]).value.1)
    {
      IndexLastWins(items, f, k, i);
    }
  }

  /** One step of `Index` adds at most one key, at the end, and only one
      the prefix did not hold. */
  lemma IndexGrows<T, V>(items: seq<T>, f: T -> Option<(string, V)>)
    requires |items| > 0
    ensures var dp := Index(items[..|items| - 1], f);
      var d := Index(items, f);
      && |dp| <= |d| <= |dp| + 1
      && (|d| > |dp| ==> Names(f(items[|items| - 1]), d[|dp|].0) && d[|dp|].0 !in Keys(dp))
  {
    var dp := Index(items[..|items| - 1], f);
    var d := Index(items, f);
    IndexStep(items, f);
    assert |Keys(d)| == |d| && |Keys(dp)| == |dp|;
    if |d| > |dp| {
      assert Keys(d)[|dp|] == d[|dp|].0;
    }
  }

  /** One step of `Index` keeps the prefix's key at each position. */
  lemma IndexKeyKept<T, V>(items: seq<T>, f: T -> Option<(string, V)>, a: int)
    requires |items| > 0 && 0 <= a < |Index(items[..|items| - 1], f)|
    ensures a < |Index(items, f)| && Index(items, f)[a].0 == Index(items[..|items| - 1], f)[a].0
  {
    var dp := Index(items[..|items| - 1], f);
    var d := Index(items, f);
    IndexStep(items, f);
    assert |Keys(d)| == |d| && |Keys(dp)| == |dp|;
    assert Keys(d)[a] == d[a].0 && Keys(dp)[a] == dp[a].0;
  }

  /** A key one step of `Index` adds is named by no earlier item. */
  lemma IndexNewKeyFresh<T, V>(items: seq<T>, f: T -> Option<(string, V)>, j: int)
    requires |items| > 0 && |Index(items[..|items| - 1], f)| < |Index(items, f)|
    requires 0 <= j < |items| - 1
    ensures !Names(f(items[j]), Index(items, f)[|Index(items[..|items| - 1], f)|].0)
  {
    var p := items[..|items| - 1];
    var k := Index(items, f)[|Index(p, f)|].0;
    IndexGrows(items, f);
    IndexHasKey(p, f, k);
    assert p[j] == items[j];
  }

  /** A key the prefix already held is named by some earlier item. */
  lemma IndexOldKeyNamed<T, V>(items: seq<T>, f: T -> Option<(string, V)>, a: int)
    requires |items| > 0 && 0 <= a < |Index(items[..|items| - 1], f)|
    ensures a < |Index(items, f)|
    ensures exists i :: 0 <= i < |items| - 1 && Names(f(items[i]), Index(items, f)[a].0)
  {
    var p := items[..|items| - 1];
    var dp := Index(p, f);
    IndexKeyKept(items, f, a);
    assert Keys(dp)[a] == dp[a].0;
    IndexHasKey(p, f, dp[a].0);
    var i :| 0 <= i < |p| && Names(f(p[i]), dp[a].0);
    assert p[i] == items[i];
  }

  lemma {:induction false} IndexOrderAt<T, V>(items: seq<T>, f: T -> Option<(string, V)>, a: int, b: int, j: int)
    requires 0 <= a < b < |Index(items, f)| && 0 <= j < |items|
    requires Names(f(items[j]), Index(items, f)[b].0)
    ensures exists i :: 0 <= i < j && Names(f(items[i]), Index(items, f)[a].0)
  {
    var n := |items| - 1;
    var p := items[..n];
    var dp := Index(p, f);
    IndexGrows(items, f);
    if j < n {
      if b < |dp| {
        assert p[j] == items[j];
        IndexKeyKept(items, f, a);
        IndexKeyKept(items, f, b);
        IndexOrderAt(p, f, a, b, j);
        var i :| 0 <= i < j && Names(f(p[i]), dp[a].0);
        assert p[i] == items[i];
      } else {
        IndexNewKeyFresh(items, f, j);
        assert false;
      }
    } else {
      IndexOldKeyNamed(items, f, a);
    }
  }

  /** Keys appear in the order of their first assignment: every item filed
      under a later key is preceded by an item filed under each earlier key. */
  lemma IndexOrder<T, V>(items: seq<T>, f: T -> Option<(string, V)>)
    ensures var d := Index(items, f);
      forall a, b, j :: 0 <= a < b < |d| && 0 <= j < |items| && Names(f(items[j]), d[b].0) ==>
        exists i :: 0 <= i < j && Names(f(items[i]), d[a].0)
  {
    var d := Index(items, f);
    forall a, b, j | 0 <= a < b < |d| && 0 <= j < |items| && Names(f(items[j]), d[b].0)
      ensures exists i :: 0 <= i < j && Names(f(items[i]), d[a].0)
    {
      IndexOrderAt(items, f, a, b, j);
    }
  }

  lemma {:induction false} LastNamingExists<T, V>(items: seq<T>, f: T -> Option<(string, V)>, k: string)
    requires exists i :: 0 <= i < |items| && Names(f(items[i]), k)
    ensures exists i :: LastNaming(items, f, k, i)
  {
    var n := |items| - 1;
    if Names(f(items[n]), k) {
      assert LastNaming(items, f, k, n);
    } else {
      var p := items[..n];
      var i :| 0 <= i < |items| && Names(f(items[i]), k);
      assert i < n && p[i] == items[i];
      LastNamingExists(p, f, k);
      var m :| LastNaming(p, f, k, m);
      assert items[m] == p[m];
      forall j | m < j < |items|
        ensures !Names(f(items[j]), k)
      {
        if j < n {
          assert items[j] == p[j];
        }
      }
      assert LastNaming(items, f, k, m);
    }
  }

  /** Every pair of `Index` is the pair of the last item filed under its key. */
  lemma IndexEntry<T, V>(items: seq<T>, f: T -> Option<(string, V)>, i: int)
    requires 0 <= i < |Index(items, f)|
    ensures exists j :: LastNaming(items, f, Index(items, f)[i].0, j) && f(items[j]) == Some(Index(items, f)[i])
  {
    var d := Index(items, f);
    var k := d[i].0;
    assert Keys(d)[i] == k;
    IndexHasKey(items, f, k);
    LastNamingExists(items, f, k);
    var j :| LastNaming(items, f, k, j);
    IndexLastWins(items, f, k, j);
    assert Lookup(d, k) == Some(d[i].1);
  }

  /** The pairs of `d` whose key is not a key of `other`, in their order in `d`. */
  function Without<V, W>(d: Dict<V>, other: Dict<W>): (r: Dict<V>)
    ensures forall i :: 0 <= i < |r| ==> r[i] in d && r[i].0 !in Keys(other)
    ensures forall i :: 0 <= i < |d| && d[i].0 !in Keys(other) ==> d[i] in r
    ensures UniqueKeys(d) ==> UniqueKeys(r)
  {
    if |d| == 0 then []
    else
      var rest := Without(d[1..], other);
      assert forall i :: 0 < i < |d| ==> d[i] == d[1..][i - 1];
      if d[0].0 in Keys(other) then rest
      else
        var r := [d[0]] + rest;
        assert forall i :: 0 < i < |r| ==> r[i] == rest[i - 1];
        r
  }
}

=== FILE: handlers.dfy ===
/** The server side of extension management (jupyterlab_discovery/handlers.py),
    from already-parsed data onwards: extraction of the outdated table, the
    per-package version info, the installed list, validation and dispatch of
    action requests, and the uninstall status. Subprocesses, JSON parsing,
    the thread pool and the web framework are left out. */
module Handlers {
  import opened Wrappers
  import opened Dict

  /** The dict built by `_make_extension_entry`: exactly these seven fields. */
  datatype ExtensionEntry = ExtensionEntry(
    name: string,
    description: string,
    enabled: bool,
    core: bool,
    latestVersion: string,
    installedVersion: string,
    status: string)

  /** The fields of an extension's package.json that are read. */
  datatype PackageJson = PackageJson(description: string, version: string)

  /** One value of the app info's `extensions` dict: the recorded version
      and the package.json found at the recorded path. */
  datatype ExtensionData = ExtensionData(version: string, package: PackageJson)

  /** One cached outdated entry. */
  datatype Outdated = Outdated(wanted: string, latest: string)

  /** What `_get_pkg_info` returns: the package.json fields plus the wanted
      and latest versions. */
  datatype PkgInfo = PkgInfo(description: string, version: string, wantedVersion: string, latestVersion: string)

  // ---------------------------------------------------------------------
  // The outdated cache

  /** The `data` member of one line of `yarn outdated --json`. */
  datatype YarnData = YarnData(body: Option<seq<seq<string>>>)

  /** One parsed line of `yarn outdated --json`. */
  datatype YarnRecord = YarnRecord(kind: string, data: Option<YarnData>)

  /** The yarn run: timed out, or finished (with any exit status) with its
      parsed output lines. */
  datatype YarnOutcome = TimedOut | Output(records: seq<YarnRecord>)

  predicate IsTable(r: YarnRecord) {
    r.kind == "table" && r.data.Some? && r.data.value.body.Some?
  }

  /** The rows of every table record, in order. */
  function TableRows(records: seq<YarnRecord>): (rows: seq<seq<string>>)
    ensures forall row :: row in rows <==>
      exists i :: 0 <= i < |records| && IsTable(records[i]) && row in records[i].data.value.body.value
  {
    if |records| == 0 then []
    else
      var rest := TableRows(records[1..]);
      assert forall i :: 0 < i < |records| ==> records[i] == records[1..][i - 1];
      if IsTable(records[0]) then records[0].data.value.body.value + rest else rest
  }

  /** A row names a package when it has at least the four cells
      name, current, wanted, latest. */
  function RowPair(row: seq<string>): Option<(string, Outdated)> {
    if |row| >= 4 then Some((row[0], Outdated(row[2], row[3]))) else None
  }

  /** Row `i` is the last row of at least four cells naming `k`. */
  ghost predicate LastRow(rows: seq<seq<string>>, k: string, i: int) {
    && 0 <= i < |rows| && |rows[i]| >= 4 && rows[i][0] == k
    && forall j :: i < j < |rows| ==> |rows[j]| < 4 || rows[j][0] != k
  }

  /** `_load_outdated`: the cache starts empty and stays empty when yarn
      times out; otherwise it holds one entry per package named by a table
      row of at least four cells. */
  function LoadOutdated(outcome: YarnOutcome): (cache: Dict<Outdated>)
    ensures UniqueKeys(cache)
    ensures outcome.TimedOut? ==> cache == []
    ensures outcome.Output? ==> forall k :: k in Keys(cache) <==>
      exists row :: row in TableRows(outcome.records) && |row| >= 4 && row[0] == k
  {
    match outcome
    case TimedOut => []
    case Output(records) =>
      var rows := TableRows(records);
      var cache := Index(rows, RowPair);
      forall k
        ensures k in Keys(cache) <==> exists row :: row in rows && |row| >= 4 && row[0] == k
      {
        IndexHasKey(rows, RowPair, k);
        if exists row :: row in rows && |row| >= 4 && row[0] == k {
          var row :| row in rows && |row| >= 4 && row[0] == k;
          var i :| 0 <= i < |rows| && rows[i] == row;
          assert Names(RowPair(rows[i]), k);
        }
      }
      cache
  }

  /** A later row for the same package overwrites an earlier one: the cached
      versions are cells 2 and 3 of the last row naming the package. */
  lemma {:induction false} OutdatedFromLastRow(records: seq<YarnRecord>, k: string, i: int)
    requires LastRow(TableRows(records), k, i)
    ensures var row := TableRows(records)[i];
      Lookup(LoadOutdated(Output(records)), k) == Some(Outdated(row[2], row[3]))
  {
    var rows := TableRows(records);
    assert LoadOutdated(Output(records)) == Index(rows, RowPair);
    forall j | i < j < |rows|
      ensures !Names(RowPair(rows[j]), k)
    {
    }
    assert LastNaming(rows, RowPair, k, i);
    IndexLastWins(rows, RowPair, k, i);
  }

  /** `if not self._outdated: self._load_outdated()`: an empty cache is
      reloaded from a fresh yarn run before use. */
  function Refreshed(cache: Dict<Outdated>, reload: YarnOutcome): (c: Dict<Outdated>)
    ensures UniqueKeys(cache) ==> UniqueKeys(c)
    ensures |cache| > 0 ==> c == cache
    ensures |cache| == 0 ==> c == LoadOutdated(reload)
    ensures reload.TimedOut? ==> c == cache
  {
    if |cache| == 0 then LoadOutdated(reload) else cache
  }

  /** Reloading is only attempted while the cache is empty, so a second
      refresh from the same yarn run changes nothing. */
  lemma RefreshedIdempotent(cache: Dict<Outdated>, reload: YarnOutcome)
    ensures Refreshed(Refreshed(cache, reload), reload) == Refreshed(cache, reload)
  {
  }

  /** `_get_pkg_info` on a loaded cache: the cached wanted and latest
      versions when the package is outdated, else the package's own version
      for both. */
  function GetPkgInfo(name: string, pkg: PackageJson, cache: Dict<Outdated>): (info: PkgInfo)
    ensures info.description == pkg.description && info.version == pkg.version
    ensures name in Keys(cache) ==>
      Some(Outdated(info.wantedVersion, info.latestVersion)) == Lookup(cache, name)
    ensures name !in Keys(cache) ==> info.wantedVersion == pkg.version && info.latestVersion == pkg.version
  {
    match Lookup(cache, name)
    case Some(o) => PkgInfo(pkg.description, pkg.version, o.wanted, o.latest)
    case None => PkgInfo(pkg.description, pkg.version, pkg.version, pkg.version)
  }

  /** When yarn timed out, nothing is reported as outdated: wanted and
      latest are the package's own version. */
  lemma TimedOutReportsCurrent(name: string, pkg: PackageJson)
    ensures var info := GetPkgInfo(name, pkg, LoadOutdated(TimedOut));
      info.wantedVersion == pkg.version && info.latestVersion == pkg.version
  {
  }

  // ---------------------------------------------------------------------
  // The installed list

  /** One entry of `list_extensions`. */
  function ListEntry(name: string, data: ExtensionData, disabled: seq<string>, cache: Dict<Outdated>): ExtensionEntry {
    var info := GetPkgInfo(name, data.package, cache);
    ExtensionEntry(name, info.description, name !in disabled, false, info.wantedVersion, data.version, "ok")
  }

  /** `list_extensions`: one entry per installed extension, in the app
      info's order; enabled exactly when not disabled, never core, status
      "ok", latest version the wanted one, installed version the recorded one. */
  function ListExtensions(extensions: Dict<ExtensionData>, disabled: seq<string>, cache: Dict<Outdated>, reload: YarnOutcome)
    : (entries: seq<ExtensionEntry>)
    ensures |entries| == |extensions|
    ensures forall i :: 0 <= i < |entries| ==>
      var name := extensions[i].0;
      var data := extensions[i].1;
      var info := GetPkgInfo(name, data.package, Refreshed(cache, reload));
      && entries[i].name == name
      && (entries[i].enabled <==> name !in disabled)
      && !entries[i].core
      && entries[i].status == "ok"
      && entries[i].description == data.package.description
      && entries[i].latestVersion == info.wantedVersion
      && entries[i].installedVersion == data.version
  {
    var c := Refreshed(cache, reload);
    seq(|extensions|, i requires 0 <= i < |extensions| => ListEntry(extensions[i].0, extensions[i].1, disabled, c))
  }

  // ---------------------------------------------------------------------
  // Action requests

  datatype Command = InstallCmd | UninstallCmd | EnableCmd | DisableCmd

  function CommandName(c: Command): string {
    match c
    case InstallCmd => "install"
    case UninstallCmd => "uninstall"
    case EnableCmd => "enable"
    case DisableCmd => "disable"
  }

  /** `cmd in ('install', 'uninstall', 'enable', 'disable')`. */
  function ParseCommand(cmd: string): (c: Option<Command>)
    ensures c.Some? ==> CommandName(c.value) == cmd
  {
    if cmd == "install" then Some(InstallCmd)
    else if cmd == "uninstall" then Some(UninstallCmd)
    else if cmd == "enable" then Some(EnableCmd)
    else if cmd == "disable" then Some(DisableCmd)
    else None
  }

  /** Every command is recognised by its own name and only by it. */
  lemma CommandRoundTrip(c: Command, s: string)
    ensures ParseCommand(CommandName(c)) == Some(c)
    ensures ParseCommand(s) == Some(c) <==> s == CommandName(c)
  {
  }

  /** The decision `post` makes before calling the manager. */
  datatype PostDecision = Rejected(code: int) | Dispatch(cmd: Command, name: string)

  /** `post`'s validation: an unknown command, or a null or empty name, is
      rejected with 422; otherwise the command and name are dispatched. */
  function ValidatePost(cmd: string, name: Option<string>): (d: PostDecision)
    ensures d.Rejected? <==> ParseCommand(cmd).None? || name.None? || name.value == ""
    ensures d.Rejected? ==> d.code == 422
    ensures d.Dispatch? ==> CommandName(d.cmd) == cmd && name == Some(d.name)
  {
    match ParseCommand(cmd)
    case None => Rejected(422)
    case Some(c) => if name.None? || name.value == "" then Rejected(422) else Dispatch(c, name.value)
  }

  /** The manager method's result: it returned a status dict, or raised. */
  datatype ManagerReply = Returned(status: string) | Raised(message: string)

  /** `uninstall`'s status: "ok" exactly when the extension was uninstalled. */
  function UninstallStatus(didUninstall: bool): (s: string)
    ensures s == "ok" <==> didUninstall
    ensures s == "ok" || s == "error"
  {
    if didUninstall then "ok" else "error"
  }

  /** The status dict each manager method returns; only uninstall can
      report "error". */
  function ManagerStatus(c: Command, didUninstall: bool): (s: string)
    ensures s != "ok" <==> c == UninstallCmd && !didUninstall
  {
    if c == UninstallCmd then UninstallStatus(didUninstall) else "ok"
  }

  /** The HTTP response of `post` with its message. */
  datatype Response = Response(code: int, message: string)

  /** `post`: 422 for an invalid request, 500 with the exception's text when
      the manager raises, and 200 otherwise; the returned status dict is not
      consulted, so a failed uninstall still answers 200. */
  function Post(cmd: string, name: Option<string>, reply: ManagerReply): (r: Response)
    ensures r.code == 422 <==> ValidatePost(cmd, name).Rejected?
    ensures r.code == 500 <==> ValidatePost(cmd, name).Dispatch? && reply.Raised?
    ensures r.code == 500 ==> r.message == reply.message
    ensures r.code == 200 <==> ValidatePost(cmd, name).Dispatch? && reply.Returned?
  {
    match ValidatePost(cmd, name)
    case Rejected(code) => Response(code, "")
    case Dispatch(_, _) =>
      match reply
      case Raised(msg) => Response(500, msg)
      case Returned(_) => Response(200, "")
  }
}

=== FILE: model.dfy ===
/** The extension list model (src/model.ts): translation of the registry's
    search hits and of the locally installed list into name-keyed entries,
    their merge into the `installed` and `installable` views, and the guards
    in front of the four extension actions. The registry search and the
    installed-list fetch are inputs. */
module ListModel {
  import opened Wrappers
  import opened Dict
  import Query

  /** The tool's own package, hidden from both lists. */
  const SelfName: string := "jupyterlab_discovery"

  datatype Status = Ok | Warning | Error | Deprecated

  /** `IEntry`: one row of the view. `None` stands for `null`. */
  datatype Entry = Entry(
    name: string,
    description: string,
    pythonPackage: Option<string>,
    installed: bool,
    enabled: bool,
    status: Option<Status>,
    latestVersion: string,
    installedVersion: string)

  /** `IInstalledEntry`: one record of the server's installed list. */
  datatype InstalledRecord = InstalledRecord(
    name: string,
    description: string,
    enabled: bool,
    core: bool,
    latestVersion: string,
    installedVersion: string,
    status: Option<Status>)

  /** The `package` part of one registry search hit (scores are not used). */
  datatype Package = Package(name: string, version: string, description: string)

  /** `ISearchResult`: the hits of one page and the registry's total count. */
  datatype SearchResult = SearchResult(objects: seq<Package>, total: int)

  ghost function NameSet(es: seq<Entry>): set<string> {
    set e | e in es :: e.name
  }

  // ---------------------------------------------------------------------
  // Translation of the two sources into name-keyed entries

  function SearchPair(pkg: Package): Option<(string, Entry)> {
    if pkg.name == SelfName then None
    else Some((pkg.name, Entry(pkg.name, pkg.description, None, false, false, None, pkg.version, "")))
  }

  function InstalledPair(rec: InstalledRecord): Option<(string, Entry)> {
    if rec.name == SelfName then None
    else Some((rec.name, Entry(rec.name, rec.description, None, true, rec.enabled, rec.status,
                               rec.latestVersion, rec.installedVersion)))
  }

  /** Hit `i` is the last hit named `k`. */
  ghost predicate LastHit(pkgs: seq<Package>, k: string, i: int) {
    0 <= i < |pkgs| && pkgs[i].name == k && forall j :: i < j < |pkgs| ==> pkgs[j].name != k
  }

  /** Record `i` is the last installed record named `k`. */
  ghost predicate LastRecord(recs: seq<InstalledRecord>, k: string, i: int) {
    0 <= i < |recs| && recs[i].name == k && forall j :: i < j < |recs| ==> recs[j].name != k
  }

  /** `translateSearchResult`: one entry per distinct hit name except the
      tool's own, never installed or enabled, with no status and no
      installed version. */
  function TranslateSearchResult(objects: seq<Package>): (entries: Dict<Entry>)
    ensures UniqueKeys(entries)
    ensures forall k :: k in Keys(entries) <==>
      k != SelfName && exists i :: 0 <= i < |objects| && objects[i].name == k
    ensures forall i :: 0 <= i < |entries| ==>
      var e := entries[i].1;
      && e.name == entries[i].0
      && !e.installed && !e.enabled && e.status.None? && e.pythonPackage.None?
      && e.installedVersion == ""
  {
    var entries := Index(objects, SearchPair);
    forall k
      ensures k in Keys(entries) <==> k != SelfName && exists i :: 0 <= i < |objects| && objects[i].name == k
    {
      SearchKey(objects, k);
    }
    forall i | 0 <= i < |entries|
      ensures SearchShape(entries[i])
    {
      SearchEntryShape(objects, i);
    }
    entries
  }

  lemma SearchKey(objects: seq<Package>, k: string)
    ensures k in Keys(Index(objects, SearchPair)) <==>
      k != SelfName && exists i :: 0 <= i < |objects| && objects[i].name == k
  {
    IndexHasKey(objects, SearchPair, k);
    if k != SelfName && exists i :: 0 <= i < |objects| && objects[i].name == k {
      var i :| 0 <= i < |objects| && objects[i].name == k;
      assert Names(SearchPair(objects[i]), k);
    }
  }

  /** The fields every translated search hit has. */
  predicate SearchShape(p: (string, Entry)) {
    && p.1.name == p.0
    && !p.1.installed && !p.1.enabled && p.1.status.None? && p.1.pythonPackage.None?
    && p.1.installedVersion == ""
  }

  lemma SearchEntryShape(objects: seq<Package>, i: int)
    requires 0 <= i < |Index(objects, SearchPair)|
    ensures SearchShape(Index(objects, SearchPair)[i])
  {
    IndexEntry(objects, SearchPair, i);
    var j :| 0 <= j < |objects| && SearchPair(objects[j]) == Some(Index(objects, SearchPair)[i]);
  }

  /** The entry for a name carries the description and version of the last
      hit of that name. */
  lemma {:induction false} SearchEntryFromLastHit(objects: seq<Package>, i: int)
    requires 0 <= i < |TranslateSearchResult(objects)|
    ensures var e := TranslateSearchResult(objects)[i].1;
      exists j :: LastHit(objects, e.name, j)
        && e.latestVersion == objects[j].version && e.description == objects[j].description
  {
    var entries := TranslateSearchResult(objects);
    assert entries == Index(objects, SearchPair);
    IndexEntry(objects, SearchPair, i);
    var j :| LastNaming(objects, SearchPair, entries[i].0, j) && SearchPair(objects[j]) == Some(entries[i]);
    assert LastHit(objects, entries[i].0, j);
  }

  /** `translateInstalled`: one entry per distinct record name except the
      tool's own, always installed. */
  function TranslateInstalled(records: seq<InstalledRecord>): (entries: Dict<Entry>)
    ensures UniqueKeys(entries)
    ensures forall k :: k in Keys(entries) <==>
      k != SelfName && exists i :: 0 <= i < |records| && records[i].name == k
    ensures forall i :: 0 <= i < |entries| ==>
      entries[i].1.name == entries[i].0 && entries[i].1.installed && entries[i].1.pythonPackage.None?
  {
    var entries := Index(records, InstalledPair);
    forall k
      ensures k in Keys(entries) <==> k != SelfName && exists i :: 0 <= i < |records| && records[i].name == k
    {
      InstalledKey(records, k);
    }
    forall i | 0 <= i < |entries|
      ensures InstalledShape(entries[i])
    {
      InstalledEntryShape(records, i);
    }
    entries
  }

  lemma InstalledKey(records: seq<InstalledRecord>, k: string)
    ensures k in Keys(Index(records, InstalledPair)) <==>
      k != SelfName && exists i :: 0 <= i < |records| && records[i].name == k
  {
    IndexHasKey(records, InstalledPair, k);
    if k != SelfName && exists i :: 0 <= i < |records| && records[i].name == k {
      var i :| 0 <= i < |records| && records[i].name == k;
      assert Names(InstalledPair(records[i]), k);
    }
  }

  /** The fields every translated installed record has. */
  predicate InstalledShape(p: (string, Entry)) {
    p.1.name == p.0 && p.1.installed && p.1.pythonPackage.None?
  }

  lemma InstalledEntryShape(records: seq<InstalledRecord>, i: int)
    requires 0 <= i < |Index(records, InstalledPair)|
    ensures InstalledShape(Index(records, InstalledPair)[i])
  {
    IndexEntry(records, InstalledPair, i);
    var j :| 0 <= j < |records| && InstalledPair(records[j]) == Some(Index(records, InstalledPair)[i]);
  }

  /** The entry for a name copies enabled, status, versions and description
      from the last installed record of that name. */
  lemma {:induction false} InstalledEntryFromLastRecord(records: seq<InstalledRecord>, i: int)
    requires 0 <= i < |TranslateInstalled(records)|
    ensures var e := TranslateInstalled(records)[i].1;
      exists j :: LastRecord(records, e.name, j)
        && e.enabled == records[j].enabled && e.status == records[j].status
        && e.latestVersion == records[j].latestVersion
        && e.installedVersion == records[j].installedVersion
        && e.description == records[j].description
  {
    var entries := TranslateInstalled(records);
    assert entries == Index(records, InstalledPair);
    IndexEntry(records, InstalledPair, i);
    var j :| LastNaming(records, InstalledPair, entries[i].0, j) && InstalledPair(records[j]) == Some(entries[i]);
    assert LastRecord(records, entries[i].0, j);
  }

  /** Search entries keep the registry's relevance order: the entry for an
      earlier first hit comes before the entry for a later one. */
  lemma {:induction false} SearchOrder(objects: seq<Package>)
    ensures var d := TranslateSearchResult(objects);
      forall a, b, j :: 0 <= a < b < |d| && 0 <= j < |objects| && objects[j].name == d[b].0 ==>
        exists i :: 0 <= i < j && objects[i].name == d[a].0
  {
    var d := TranslateSearchResult(objects);
    assert d == Index(objects, SearchPair);
    forall a, b, j | 0 <= a < b < |d| && 0 <= j < |objects| && objects[j].name == d[b].0
      ensures exists i :: 0 <= i < j && objects[i].name == d[a].0
    {
      assert Keys(d)[b] == d[b].0;
      assert d[b].0 in Keys(d);
      assert Names(SearchPair(objects[j]), d[b].0);
      IndexOrderAt(objects, SearchPair, a, b, j);
      var i :| 0 <= i < j && Names(SearchPair(objects[i]), d[a].0);
    }
  }

  // ---------------------------------------------------------------------
  // The merge performed by `update`

  /** The reconciled view: `installed`, `installable` and `totalEntries`. */
  datatype View = View(installed: seq<Entry>, installable: seq<Entry>, totalEntries: int)

  ghost function HitNames(objects: seq<Package>): set<string> {
    set i | 0 <= i < |objects| && objects[i].name != SelfName :: objects[i].name
  }

  ghost function RecordNames(records: seq<InstalledRecord>): set<string> {
    set i | 0 <= i < |records| && records[i].name != SelfName :: records[i].name
  }

  lemma {:induction false} NameSetOfValues(d: Dict<Entry>, names: set<string>)
    requires forall i :: 0 <= i < |d| ==> d[i].1.name == d[i].0
    requires forall k :: k in Keys(d) <==> k in names
    ensures NameSet(Values(d)) == names
  {
    forall k | k in names
      ensures k in NameSet(Values(d))
    {
      var i :| 0 <= i < |d| && Keys(d)[i] == k;
      assert Values(d)[i] in Values(d);
    }
    forall k | k in NameSet(Values(d))
      ensures k in names
    {
      var e :| e in Values(d) && e.name == k;
      var i :| 0 <= i < |d| && Values(d)[i] == e;
      assert Keys(d)[i] == k;
    }
  }

  /** The search entries whose name is not installed, in search order. */
  function Installable(objects: seq<Package>, records: seq<InstalledRecord>): Dict<Entry> {
    Without(TranslateSearchResult(objects), TranslateInstalled(records))
  }

  lemma {:induction false} InstallableShape(objects: seq<Package>, records: seq<InstalledRecord>)
    ensures var rest := Installable(objects, records);
      && UniqueKeys(rest)
      && forall i :: 0 <= i < |rest| ==> rest[i].1.name == rest[i].0 && !rest[i].1.installed
  {
    var searchMap := TranslateSearchResult(objects);
    var rest := Installable(objects, records);
    forall i | 0 <= i < |rest|
      ensures rest[i].1.name == rest[i].0 && !rest[i].1.installed
    {
      var m :| 0 <= m < |searchMap| && searchMap[m] == rest[i];
    }
  }

  ghost predicate IsHit(objects: seq<Package>, k: string) {
    k != SelfName && exists i :: 0 <= i < |objects| && objects[i].name == k
  }

  ghost predicate IsRecord(records: seq<InstalledRecord>, k: string) {
    k != SelfName && exists i :: 0 <= i < |records| && records[i].name == k
  }

  lemma {:induction false} InstallableKeyIsHit(objects: seq<Package>, records: seq<InstalledRecord>, k: string)
    requires k in Keys(Installable(objects, records))
    ensures IsHit(objects, k) && !IsRecord(records, k)
  {
    var searchMap := TranslateSearchResult(objects);
    var installedMap := TranslateInstalled(records);
    var rest := Installable(objects, records);
    var i :| 0 <= i < |rest| && Keys(rest)[i] == k;
    assert rest[i].0 == k;
    assert rest[i] in searchMap && k !in Keys(installedMap);
    var m :| 0 <= m < |searchMap| && searchMap[m] == rest[i];
    assert Keys(searchMap)[m] == k;
    assert k in Keys(searchMap);
    assert IsHit(objects, k);
    assert !IsRecord(records, k);
  }

  lemma {:induction false} HitIsInstallableKey(objects: seq<Package>, records: seq<InstalledRecord>, k: string)
    requires IsHit(objects, k) && !IsRecord(records, k)
    ensures k in Keys(Installable(objects, records))
  {
    var searchMap := TranslateSearchResult(objects);
    var installedMap := TranslateInstalled(records);
    var rest := Installable(objects, records);
    assert k in Keys(searchMap);
    var m :| 0 <= m < |searchMap| && Keys(searchMap)[m] == k;
    assert k !in Keys(installedMap);
    assert searchMap[m] in rest;
    var i :| 0 <= i < |rest| && rest[i] == searchMap[m];
    assert Keys(rest)[i] == k;
  }

  lemma HitNamesMembers(objects: seq<Package>, records: seq<InstalledRecord>, k: string)
    ensures k in HitNames(objects) <==> IsHit(objects, k)
    ensures k in RecordNames(records) <==> IsRecord(records, k)
  {
    if IsHit(objects, k) {
      var i :| 0 <= i < |objects| && objects[i].name == k;
      assert objects[i].name in HitNames(objects);
    }
    if IsRecord(records, k) {
      var i :| 0 <= i < |records| && records[i].name == k;
      assert records[i].name in RecordNames(records);
    }
  }

  lemma InstallableKey(objects: seq<Package>, records: seq<InstalledRecord>, k: string)
    ensures k in Keys(Installable(objects, records)) <==> k in HitNames(objects) - RecordNames(records)
  {
    HitNamesMembers(objects, records, k);
    if k in Keys(Installable(objects, records)) {
      InstallableKeyIsHit(objects, records, k);
    }
    if IsHit(objects, k) && !IsRecord(records, k) {
      HitIsInstallableKey(objects, records, k);
    }
  }

  lemma InstallableEntries(objects: seq<Package>, records: seq<InstalledRecord>)
    ensures var rest := Installable(objects, records);
      && UniqueKeys(rest)
      && (forall i :: 0 <= i < |rest| ==> rest[i].1.name == rest[i].0 && !rest[i].1.installed)
      && (forall k :: k in Keys(rest) <==> k in HitNames(objects) - RecordNames(records))
  {
    InstallableShape(objects, records);
    forall k
      ensures k in Keys(Installable(objects, records)) <==> k in HitNames(objects) - RecordNames(records)
    {
      InstallableKey(objects, records, k);
    }
  }

  lemma {:induction false} DistinctNames(d: Dict<Entry>)
    requires UniqueKeys(d)
    requires forall i :: 0 <= i < |d| ==> d[i].1.name == d[i].0
    ensures forall i, j :: 0 <= i < j < |Values(d)| ==> Values(d)[i].name != Values(d)[j].name
  {
  }

  /** `e` is the translation of the last installed record with its name. */
  ghost predicate FromLastRecord(records: seq<InstalledRecord>, e: Entry) {
    exists j :: LastRecord(records, e.name, j)
      && e == Entry(e.name, records[j].description, None, true, records[j].enabled, records[j].status,
                    records[j].latestVersion, records[j].installedVersion)
  }

  /** `e` is the translation of the last search hit with its name. */
  ghost predicate FromLastHit(objects: seq<Package>, e: Entry) {
    exists j :: LastHit(objects, e.name, j)
      && e == Entry(e.name, objects[j].description, None, false, false, None, objects[j].version, "")
  }

  lemma InstalledContents(records: seq<InstalledRecord>, i: int)
    requires 0 <= i < |TranslateInstalled(records)|
    ensures FromLastRecord(records, TranslateInstalled(records)[i].1)
  {
    InstalledEntryFromLastRecord(records, i);
  }

  lemma SearchContents(objects: seq<Package>, m: int)
    requires 0 <= m < |TranslateSearchResult(objects)|
    ensures FromLastHit(objects, TranslateSearchResult(objects)[m].1)
  {
    SearchEntryFromLastHit(objects, m);
  }

  /** Every entry of both lists is the translation of its last source record. */
  lemma {:induction false} ViewContents(objects: seq<Package>, records: seq<InstalledRecord>)
    ensures forall e :: e in Values(TranslateInstalled(records)) ==> FromLastRecord(records, e)
    ensures forall e :: e in Values(Installable(objects, records)) ==> FromLastHit(objects, e)
  {
    var installedMap := TranslateInstalled(records);
    var searchMap := TranslateSearchResult(objects);
    var rest := Installable(objects, records);
    forall e | e in Values(installedMap)
      ensures FromLastRecord(records, e)
    {
      var i :| 0 <= i < |installedMap| && Values(installedMap)[i] == e;
      InstalledContents(records, i);
    }
    forall e | e in Values(rest)
      ensures FromLastHit(objects, e)
    {
      var i :| 0 <= i < |rest| && Values(rest)[i] == e;
      assert rest[i] in searchMap;
      var m :| 0 <= m < |searchMap| && searchMap[m] == rest[i];
      SearchContents(objects, m);
    }
  }

  /** `update`: every installed record (except the tool's own) becomes an
      installed entry; every search hit whose name is not installed becomes
      an installable entry; the total is the registry's own count. */
  function Merge(objects: seq<Package>, records: seq<InstalledRecord>, total: int): (v: View)
    ensures v.totalEntries == total
    ensures NameSet(v.installed) == RecordNames(records)
    ensures NameSet(v.installable) == HitNames(objects) - RecordNames(records)
    ensures NameSet(v.installed) !! NameSet(v.installable)
    ensures forall e :: e in v.installed ==> e.installed
    ensures forall e :: e in v.installable ==> !e.installed
    ensures forall i, j :: 0 <= i < j < |v.installed| ==> v.installed[i].name != v.installed[j].name
    ensures forall i, j :: 0 <= i < j < |v.installable| ==> v.installable[i].name != v.installable[j].name
    ensures forall e :: e in v.installed ==> FromLastRecord(records, e)
    ensures forall e :: e in v.installable ==> FromLastHit(objects, e)
  {
    var installedMap := TranslateInstalled(records);
    var rest := Installable(objects, records);
    InstallableEntries(objects, records);
    NameSetOfValues(installedMap, RecordNames(records));
    NameSetOfValues(rest, HitNames(objects) - RecordNames(records));
    DistinctNames(installedMap);
    DistinctNames(rest);
    ViewContents(objects, records);
    View(Values(installedMap), Values(rest), total)
  }

  // ---------------------------------------------------------------------
  // Model state and the search it issues

  /** The `ListModel` state that `update` reads and writes. */
  datatype ModelState = ModelState(
    query: string,
    page: int,
    pagination: int,
    totalEntries: int,
    installed: seq<Entry>,
    installable: seq<Entry>)

  /** The state of a freshly constructed model. */
  function InitialModel(): ModelState {
    ModelState("", 0, 250, 0, [], [])
  }

  /** The registry search `update` issues for the current parameters. */
  function SearchRequest(m: ModelState): (p: Query.SearchParams)
    ensures Query.QueryOfText(p.text) == Some(m.query)
    ensures p.size == Some(m.pagination) && p.from == Some(m.pagination * m.page)
  {
    Query.SearchExtension(m.query, Some(m.page), Some(m.pagination))
  }

  /** `update` completing with the given search result and installed list:
      the query, page and pagination are kept and the view is replaced. */
  function Refresh(m: ModelState, search: SearchResult, records: seq<InstalledRecord>): (m': ModelState)
    ensures m'.query == m.query && m'.page == m.page && m'.pagination == m.pagination
    ensures var v := Merge(search.objects, records, search.total);
      m'.installed == v.installed && m'.installable == v.installable && m'.totalEntries == search.total
  {
    var v := Merge(search.objects, records, search.total);
    m.(installed := v.installed, installable := v.installable, totalEntries := v.totalEntries)
  }

  /** A fresh model shows nothing, and the search an `update` would issue
      from its initial parameters asks for the first 250 hits of the bare
      keyword filter. */
  lemma InitialSearch()
    ensures InitialModel().installed == [] && InitialModel().installable == []
    ensures InitialModel().totalEntries == 0
    ensures SearchRequest(InitialModel()) ==
      Query.SearchParams("not:insecure " + " keywords:jupyterlab extension", Some(250), Some(0))
  {
    assert Query.TextPrefix + "" + Query.TextSuffix == Query.TextPrefix + Query.TextSuffix;
  }

  // ---------------------------------------------------------------------
  // Actions

  datatype Action = Install | Uninstall | Enable | Disable

  /** The `cmd` string of an action's POST body. */
  function CmdName(a: Action): string {
    match a
    case Install => "install"
    case Uninstall => "uninstall"
    case Enable => "enable"
    case Disable => "disable"
  }

  /** The POST body `{cmd, extension_name}` built by `_performAction`. */
  datatype Request = Request(cmd: string, extensionName: string)

  function PerformAction(a: Action, e: Entry): (r: Request)
    ensures r.cmd == CmdName(a) && r.extensionName == e.name
  {
    Request(CmdName(a), e.name)
  }

  /** `install`: refused for an installed entry, else requested. */
  function InstallEntry(e: Entry): (r: Result<Request, string>)
    ensures r.Failure? <==> e.installed
    ensures r.Failure? ==> r.error == "Already installed: " + e.name
    ensures r.Success? ==> r.value == Request("install", e.name)
  {
    if e.installed then Failure("Already installed: " + e.name)
    else Success(PerformAction(Install, e))
  }

  /** `uninstall`: refused for an entry that is not installed. */
  function UninstallEntry(e: Entry): (r: Result<Request, string>)
    ensures r.Failure? <==> !e.installed
    ensures r.Failure? ==> r.error == "Not installed, cannot uninstall: " + e.name
    ensures r.Success? ==> r.value == Request("uninstall", e.name)
  {
    if !e.installed then Failure("Not installed, cannot uninstall: " + e.name)
    else Success(PerformAction(Uninstall, e))
  }

  /** `enable`: refused for an enabled entry. */
  function EnableEntry(e: Entry): (r: Result<Request, string>)
    ensures r.Failure? <==> e.enabled
    ensures r.Failure? ==> r.error == "Already enabled: " + e.name
    ensures r.Success? ==> r.value == Request("enable", e.name)
  {
    if e.enabled then Failure("Already enabled: " + e.name)
    else Success(PerformAction(Enable, e))
  }

  /** `disable`: refused for an entry that is not enabled. */
  function DisableEntry(e: Entry): (r: Result<Request, string>)
    ensures r.Failure? <==> !e.enabled
    ensures r.Failure? ==> r.error == "Already disabled: " + e.name
    ensures r.Success? ==> r.value == Request("disable", e.name)
  {
    if !e.enabled then Failure("Already disabled: " + e.name)
    else Success(PerformAction(Disable, e))
  }

  function Act(a: Action, e: Entry): Result<Request, string> {
    match a
    case Install => InstallEntry(e)
    case Uninstall => UninstallEntry(e)
    case Enable => EnableEntry(e)
    case Disable => DisableEntry(e)
  }

  /** The (installed, enabled) flags an action aims to reach. */
  function Goal(a: Action, installed: bool, enabled: bool): (bool, bool) {
    match a
    case Install => (true, enabled)
    case Uninstall => (false, enabled)
    case Enable => (installed, true)
    case Disable => (installed, false)
  }

  /** An action is accepted exactly when it would change the entry's flags,
      and then the request names the action and the entry; a refused action
      issues no request and its message names the entry. */
  lemma {:induction false} ActionGuard(a: Action, e: Entry)
    ensures Act(a, e).Success? <==> Goal(a, e.installed, e.enabled) != (e.installed, e.enabled)
    ensures Act(a, e).Success? ==> Act(a, e).value == Request(CmdName(a), e.name)
    ensures Act(a, e).Failure? ==>
      var msg := Act(a, e).error; |e.name| <= |msg| && msg[|msg| - |e.name|..] == e.name
  {
    match a
    case Install =>
    case Uninstall =>
    case Enable =>
    case Disable =>
  }
}

=== FILE: protocol.dfy ===
/** The two ends of the extensions endpoint put together: the requests the
    list model sends against the validation of `post`, and the list that
    `list_extensions` returns as read back by the list model. */
module Protocol {
  import opened Wrappers
  import opened Dict
  import ListModel
  import Handlers

  /** The server command for a client action. */
  function CommandOf(a: ListModel.Action): Handlers.Command {
    match a
    case Install => Handlers.InstallCmd
    case Uninstall => Handlers.UninstallCmd
    case Enable => Handlers.EnableCmd
    case Disable => Handlers.DisableCmd
  }

  /** Every request an action guard lets through is dispatched by the server
      to the same action on the same extension, unless the entry's name is
      empty, which the client does not check and the server rejects. */
  lemma {:induction false} RequestDispatched(a: ListModel.Action, e: ListModel.Entry)
    requires ListModel.Act(a, e).Success?
    ensures var req := ListModel.Act(a, e).value;
      Handlers.ValidatePost(req.cmd, Some(req.extensionName)) ==
        if e.name == "" then Handlers.Rejected(422) else Handlers.Dispatch(CommandOf(a), e.name)
  {
    ListModel.ActionGuard(a, e);
    Handlers.CommandRoundTrip(CommandOf(a), ListModel.CmdName(a));
    assert ListModel.CmdName(a) == Handlers.CommandName(CommandOf(a)) by {
      match a
      case Install =>
      case Uninstall =>
      case Enable =>
      case Disable =>
    }
  }

  /** The list model's reading of a `status` string: the four known values,
      anything else as null. */
  function StatusOf(s: string): (st: Option<ListModel.Status>)
    ensures s == "ok" ==> st == Some(ListModel.Ok)
  {
    if s == "ok" then Some(ListModel.Ok)
    else if s == "warning" then Some(ListModel.Warning)
    else if s == "error" then Some(ListModel.Error)
    else if s == "deprecated" then Some(ListModel.Deprecated)
    else None
  }

  /** One server entry as an `IInstalledEntry`. */
  function ReadInstalled(e: Handlers.ExtensionEntry): ListModel.InstalledRecord {
    ListModel.InstalledRecord(e.name, e.description, e.enabled, e.core, e.latestVersion, e.installedVersion, StatusOf(e.status))
  }

  function ReadAll(entries: seq<Handlers.ExtensionEntry>): (records: seq<ListModel.InstalledRecord>)
    ensures |records| == |entries|
    ensures forall i :: 0 <= i < |entries| ==> records[i] == ReadInstalled(entries[i])
  {
    seq(|entries|, i requires 0 <= i < |entries| => ReadInstalled(entries[i]))
  }

  /** Every installed extension other than the tool itself reaches the list
      model's installed view as an installed entry that is enabled exactly
      when the server has not disabled it, with status ok, the wanted
      version as its latest version and the recorded version as installed. */
  lemma {:induction false} ServerListShownInstalled(
    extensions: Dict<Handlers.ExtensionData>, disabled: seq<string>,
    cache: Dict<Handlers.Outdated>, reload: Handlers.YarnOutcome, i: int)
    requires UniqueKeys(extensions)
    requires 0 <= i < |extensions| && extensions[i].0 != ListModel.SelfName
    ensures var name := extensions[i].0;
      var data := extensions[i].1;
      var info := Handlers.GetPkgInfo(name, data.package, Handlers.Refreshed(cache, reload));
      var records := ReadAll(Handlers.ListExtensions(extensions, disabled, cache, reload));
      Lookup(ListModel.TranslateInstalled(records), name) ==
        Some(ListModel.Entry(name, data.package.description, None, true, name !in disabled,
                             Some(ListModel.Ok), info.wantedVersion, data.version))
  {
    var name := extensions[i].0;
    var records := ReadAll(Handlers.ListExtensions(extensions, disabled, cache, reload));
    assert ListModel.TranslateInstalled(records) == Index(records, ListModel.InstalledPair);
    forall j | i < j < |records|
      ensures !Names(ListModel.InstalledPair(records[j]), name)
    {
      assert records[j].name == extensions[j].0;
    }
    assert LastNaming(records, ListModel.InstalledPair, name, i);
    IndexLastWins(records, ListModel.InstalledPair, name, i);
  }
}

=== FILE: query.dfy ===
/** The query parameters of the package-registry searches (src/query.ts).
    Fetching, URL encoding and JSON decoding are left to the caller; what
    is modelled is the parameter triple each search appends to the
    registry's `/-/v1/search` URL. */
module Query {
  import opened Wrappers

  /** The `text`, `size` and `from` search parameters; `size` and `from`
      are absent from the find-all query. */
  datatype SearchParams = SearchParams(text: string, size: Option<int>, from: Option<int>)

  const DefaultPage: int := 0
  const DefaultPagination: int := 250

  /** Fixed text placed around the user's query. */
  const TextPrefix: string := "not:insecure "
  const TextSuffix: string := " keywords:jupyterlab extension"

  const AllExtensionsText: string := "keywords:jupyterlab+extension not:insecure"

  /** Recovers the user's query from a search text, or None when the text
      does not have the fixed prefix and suffix. */
  function QueryOfText(text: string): Option<string> {
    if |text| >= |TextPrefix| + |TextSuffix|
      && text[..|TextPrefix|] == TextPrefix
      && text[|text| - |TextSuffix|..] == TextSuffix
    then Some(text[|TextPrefix|..|text| - |TextSuffix|])
    else None
  }

  /** `Searcher.searchExtension(query, page, pagination)`; an absent
      argument takes its JavaScript default. */
  function SearchExtension(query: string, page: Option<int>, pagination: Option<int>): (p: SearchParams)
    ensures QueryOfText(p.text) == Some(query)
    ensures p.size == Some(pagination.GetOr(DefaultPagination))
    ensures p.from == Some(pagination.GetOr(DefaultPagination) * page.GetOr(DefaultPage))
  {
    var text := TextPrefix + query + TextSuffix;
    assert text[..|TextPrefix|] == TextPrefix;
    assert text[|text| - |TextSuffix|..] == TextSuffix;
    assert text[|TextPrefix|..|text| - |TextSuffix|] == query;
    var size := pagination.GetOr(DefaultPagination);
    SearchParams(text, Some(size), Some(size * page.GetOr(DefaultPage)))
  }

  /** Different queries give different search texts, and consecutive pages
      ask for adjacent windows of `size` results, the first starting at 0. */
  lemma SearchWindows(q1: string, q2: string, page: int, pagination: int)
    ensures q1 != q2 ==>
      SearchExtension(q1, Some(page), Some(pagination)).text != SearchExtension(q2, Some(page), Some(pagination)).text
    ensures SearchExtension(q1, Some(0), Some(pagination)).from == Some(0)
    ensures SearchExtension(q1, Some(page + 1), Some(pagination)).from.value
      == SearchExtension(q1, Some(page), Some(pagination)).from.value + pagination
  {
    var p1 := SearchExtension(q1, Some(page), Some(pagination));
    var p2 := SearchExtension(q2, Some(page), Some(pagination));
    if p1.text == p2.text {
      assert QueryOfText(p1.text) == Some(q1) && QueryOfText(p2.text) == Some(q2);
    }
    NextWindow(pagination, page);
  }

  lemma NextWindow(size: int, page: int)
    ensures size * (page + 1) == size * page + size
  {
  }

  /** `Searcher.findAllExtensions()`: a fixed text and no paging. */
  function FindAllExtensions(): (p: SearchParams)
    ensures p.size.None? && p.from.None?
    ensures QueryOfText(p.text).None?
  {
    SearchParams(AllExtensionsText, None, None)
  }
}

=== FILE: wrappers.dfy ===
/** Option and Result: the absent-or-present values and the success-or-error
    outcomes that the modelled code expresses with `undefined`/`null`,
    thrown errors and rejected promises. */
module Wrappers {

  datatype Option<+T> = None | Some(value: T) {

    /** The value if present, else the given default (JavaScript's `x || d`
        when `x` is only ever absent or a usable value). */
    function GetOr(default: T): T {
      match this
      case Some(v) => v
      case None => default
    }
  }

  datatype Result<+R, +E> = Success(value: R) | Failure(error: E)
}
